=== FILE: README.md ===
# Outline extractor and persona relevance ranker, in Dafny

This project models the two programs `extractor.py` and `persona_analyzer.py`:

- **Outline extractor** (`extractor.py`).
  - It ranks the distinct font sizes of a PDF in descending order and labels them `H1`, `H2`, ….
  - It cleans every text span and drops noise: short spans, URLs and bare page numbers.
  - It tracks a provisional title on the first two pages.
  - It emits one outline entry per surviving span whose size has a level.
  - It merges consecutive entries that share level and page.
  - It picks the title by a four-step priority.
- **Persona relevance ranker** (`persona_analyzer.py`).
  - It builds persona and job keyword sets and expands them through a fixed synonym table.
  - It cleans each page and splits it into paragraphs.
  - It scores each paragraph by non-overlapping substring counts, persona terms ×1 and job terms ×3.
  - It keeps the positive ones and titles each with the paragraph itself, or with its first 80 characters plus "..." when it is longer than 80.
  - It sorts them stably by descending score, ranks them 1, 2, … and keeps the first twenty.

The PDF library is replaced by input values:

- A `Document` is a sequence of pages. Each page holds its spans: text and font size.
- A `FileEntry` is a file name with the text of each page.

Font sizes are integers in tenths, which stands for `round(size, 1)`.

Files and modules:

| file | module | contents |
|---|---|---|
| `wrappers.dfy` | `Wrappers` | `Option` |
| `seqs.dfy` | `Seqs` | helpers shared by several proofs: regrouping of concatenations, `Map`, `Concat`, and `Filter` with the positions it keeps, each proved once for every function or predicate |
| `text.dfy` | `TextNorm` | whitespace (Python's `str.isspace` set), `re.sub(r"\s+", " ", …)`, `strip`, `split`, `" ".join`, ASCII `lower`/`isdigit`. Includes the proof that `clean_text` equals `" ".join(s.split())` |
| `decimal.dfy` | `Decimal` | `str(n)` for naturals and its inverse |
| `docmodel.dfy` | `DocModel` | spans, pages, documents |
| `fontlevels.dfy` | `FontLevels` | `analyze_font_sizes`, `map_font_to_heading_levels` |
| `merge.dfy` | `HeadingMerge` | `merge_broken_headings` and its run-collapsing characterisation |
| `extractor.dfy` | `Extractor` | the span loop of `extract_outline`, title finalisation |
| `keywords.dfy` | `Keywords` | `SYNONYMS`, `expand_keywords` |
| `scoring.dfy` | `Scoring` | `str.count`, `calculate_relevance_score` |
| `paragraphs.dfy` | `Paragraphs` | `clean_text` of the ranker, `re.split(r"\n\s*\n", …)`, `split_into_paragraphs` |
| `sorting.dfy` | `ScoreSort` | the stable descending sort |
| `ranking.dfy` | `Ranking` | candidates, ranks, top twenty, keyword sets, `generate_output` |

Paragraphs and blank lines:

- `split_into_paragraphs` splits text at blank lines (`persona_analyzer.py:24-25`).
- `analyze_documents` first applies `clean_text` to each page (`persona_analyzer.py:57-58`). That turns every whitespace run, newlines included, into one space.
- So every page yields at most one paragraph: its whole cleaned text. `Paragraphs.PageIsOneParagraph` proves this for every input.
- The splitter itself is still modelled in general, the way the regular-expression engine runs it.

`Extractor.FinalizeTitle` returns the constant "Untitled Document" as is, without calling `clean_text` on it. `Extractor.UntitledIsClean` proves that cleaning it changes nothing.

Python iterates `set`s in an unspecified order. The model walks the persona and job term sets in any order chosen by `Ranking.Enumerate`. `Scoring.ScoreOrderIndependent` and `Ranking.AnalyzeOrderIndependent` prove that the output does not depend on that order.

## Model

| member | source | states |
|---|---|---|
| FontLevels.AllSizes | extractor.py:11-17 | a size is listed exactly when some span of some page has it |
| FontLevels.DistinctDescending | extractor.py:18 | `sorted(set(xs), reverse=True)`: the result is strictly descending and has exactly the members of the input |
| FontLevels.AnalyzeFontSizes | extractor.py:9-18 | the size list is strictly descending (so without duplicates) and holds exactly the sizes of the document's spans |
| FontLevels.StrictlyDescendingUnique | extractor.py:18 | two strictly descending lists with the same members are equal, so the sorted set of sizes is unique |
| FontLevels.LevelLabel | extractor.py:24-32 | the spelled-out labels for ranks 0, 1, 2 agree with `"H" + str(i + 1)` |
| FontLevels.LevelLabelInjective | extractor.py:24-32 | distinct ranks get distinct labels |
| FontLevels.MapFontToHeadingLevels | extractor.py:21-33 | the map's keys are exactly the listed sizes, and the size at index i maps to the label of rank i |
| FontLevels.LevelsDistinct | extractor.py:21-33 | on a strictly descending list, distinct sizes map to distinct levels |
| FontLevels.LargestIsH1 | extractor.py:18-26 | a document with a span has a first size that is at least every span size, and it maps to "H1" |
| Decimal.DecimalRoundTrip | extractor.py:32 | reading back the decimal digits of `i + 1` gives `i + 1` |
| Decimal.DecimalInjective | extractor.py:32 | distinct numbers have distinct decimal spellings |
| TextNorm.CleanTextIsJoinedWords | extractor.py:36-40 | `clean_text` (`TextNorm.CleanText`): collapsing whitespace runs and stripping equals joining `str.split()` with single spaces |
| TextNorm.CleanTextIdempotent | extractor.py:36-40 | cleaning twice is cleaning once; the result has no whitespace at either end |
| TextNorm.CleanJoinAbsorbs | extractor.py:52-53 | cleaning `clean(x) + " " + y` is the same as cleaning `x + " " + y` |
| TextNorm.CleanHasNoNewline | persona_analyzer.py:18-21 | cleaned text holds no line break |
| TextNorm.CleanNonEmpty | extractor.py:78 | cleaned text is non-empty exactly when the input has a word |
| Extractor.LocateSpec | extractor.py:69-74 | the walk over pages and spans (`Extractor.Locate`) lists every span of every page exactly once, in reading order: span j of page p comes right after all spans of the earlier pages, and nothing else is listed |
| Extractor.LocateAt | extractor.py:69-74 | span j of page p is in the walk at `Extractor.Offset`: the number of spans on earlier pages, plus j |
| Extractor.SurvivorsSpec | extractor.py:75-83 | the span filter (`Extractor.KeepText`: at least two characters, not a URL, not a digit string) keeps exactly the spans that pass it, all of them, in reading order: survivor i is the span at the i-th of a strictly increasing list of positions, and a position is listed exactly when its span passes |
| Extractor.SurvivorsAt | extractor.py:75-83 | survivor i is the span at the i-th survivor position |
| Extractor.SurvivorPositionsOrdered | extractor.py:75-83 | the survivor positions strictly increase and list a position exactly when its span passes the filter |
| Extractor.SurvivorsMembers | extractor.py:75-83 | a span survives exactly when it is one of the spans and passes the filter |
| Extractor.EarlySpec | extractor.py:86 | the spans counted as title candidates are exactly the survivors on pages 0 and 1, all of them, in reading order |
| Extractor.EarlyAt | extractor.py:86 | early survivor i is the survivor at the i-th early position |
| Extractor.EarlyPositionsOrdered | extractor.py:86 | the early positions strictly increase and list a position exactly when its survivor is on page 0 or 1 |
| Extractor.ScanOutline | extractor.py:92-100 | the span loop (`Extractor.ScanAll`, one `Extractor.ScanSpan` per span) builds an outline that is the surviving spans with a labelled size, in reading order |
| Extractor.ScanCandidates | extractor.py:86-87 | the span loop's title candidates are the texts of the surviving spans on pages 0 and 1, in order |
| Extractor.ScanTitle | extractor.py:86-90 | the span loop's provisional title (`Extractor.TitleTracked`) is the first early survivor having the largest early size, set only when that size exceeds 0; a later span of equal size never replaces it |
| Extractor.TrackStep | extractor.py:88-90 | one step of the running maximum: a strictly larger span takes over, anything else leaves title and maximum alone |
| Extractor.EverySizeLabelled | extractor.py:17 | every span size of a document is a key of its level map |
| Extractor.OutlineBeforeMerge | extractor.py:75-103 | every span text is cleaned first (`Extractor.CleanSpans`, one `clean_text` per span), and before merging there is exactly one entry per surviving cleaned span, with its level, text and page |
| Extractor.FirstH1 | extractor.py:106 | the result is missing exactly when no entry is H1, and is otherwise the text of the first H1 entry |
| Extractor.MostCommon | extractor.py:110 | the chosen candidate occurs at least as often as any other |
| Extractor.FinalizeTitle | extractor.py:105-112 | the title is, in priority order, the cleaned first H1, the cleaned provisional title, the cleaned most common candidate, or "Untitled Document" |
| Extractor.UntitledIsClean | extractor.py:112 | cleaning "Untitled Document" leaves it unchanged |
| Extractor.ExtractOutline | extractor.py:59-117 | no two adjacent outline entries share level and page |
| Extractor.OutlineHasWords | extractor.py:75-103 | every final outline text has a word |
| Extractor.DocumentTitle | extractor.py:86-112 | the document's title is the cleaned first H1 of the merged outline; else the cleaned provisional title (first early survivor of the largest early size above 0); else a cleaned most frequent early survivor text; else "Untitled Document" |
| Extractor.TitleNeverEmpty | extractor.py:105-112 | the final title is never empty |
| HeadingMerge.MergeStep | extractor.py:47-55 | one step keeps the list non-empty, grows it by at most one and keeps adjacent keys distinct |
| HeadingMerge.MergeBrokenHeadings | extractor.py:43-56 | the result is no longer than the input, empty only for empty input, and has no two adjacent entries with the same level and page |
| HeadingMerge.RunsSplit | extractor.py:43-56 | the outline splits into maximal runs of consecutive entries with the same level and page |
| HeadingMerge.MergeCollapsesRuns | extractor.py:43-56 | merged entry i is run i collapsed: its level and page, and the cleaned space-join of its texts |
| HeadingMerge.LongerRunText | extractor.py:52-53 | re-cleaning after each join gives the cleaned join of the whole run |
| HeadingMerge.MergeKeepsSeparated | extractor.py:43-56 | an outline without adjacent same-key entries is left unchanged |
| HeadingMerge.MergeIdempotent | extractor.py:43-56 | merging a merged outline changes nothing |
| HeadingMerge.MergeKeepsWords | extractor.py:52-53 | if every input text has a word, so does every merged text |
| Keywords.Expand | persona_analyzer.py:28-35 | the result contains the keywords and every triggered group, and nothing else |
| Keywords.ExpandKeywords | persona_analyzer.py:28-35 | `expand_keywords`: every keyword is kept, a keyword that is a canonical term or a synonym brings in its whole group, and every added term comes from such a group |
| Keywords.SynonymsDisjoint | persona_analyzer.py:9-15 | no term belongs to two groups of the table |
| Keywords.ExpandKeywordsIdempotent | persona_analyzer.py:28-35 | expanding twice adds nothing |
| Keywords.MemberNonEmpty | persona_analyzer.py:9-15 | no term of the table is empty |
| Scoring.CountFromPositive | persona_analyzer.py:41 | the left-to-right search finds a match exactly when an occurrence starts at or after its position |
| Scoring.CountFromBound | persona_analyzer.py:41 | the counted matches fit side by side in the rest of the text |
| Scoring.CountSpec | persona_analyzer.py:41-43 | `str.count` (`Scoring.Count`): a non-empty term is counted at least once exactly when it occurs, and count × length ≤ text length |
| Scoring.CountIsMaximum | persona_analyzer.py:41-43 | `str.count` is the largest number of non-overlapping occurrences (`Scoring.NonOverlapping`): that many exist and no list is longer; for the empty term that is one per position, `|text| + 1` |
| Scoring.MatchesFromSpec | persona_analyzer.py:41-43 | the positions the left-to-right search stops at are non-overlapping occurrences, as many as it counts |
| Scoring.CountFromMaximal | persona_analyzer.py:41-43 | no list of non-overlapping occurrences after a position is longer than the search from there counts |
| Scoring.EmptyTermMaximal | persona_analyzer.py:41-43 | distinct positions of the empty term from `j` on number at most `|text| + 1 - j` |
| Scoring.SumCountsPermutation | persona_analyzer.py:40-43 | the sum of counts does not depend on the order of the terms |
| Scoring.SumCountsPositive | persona_analyzer.py:40-43 | for non-empty terms the sum is positive exactly when some term occurs |
| Scoring.ScorePositive | persona_analyzer.py:38-44 | `calculate_relevance_score` (`Scoring.Score`): for non-empty terms the score is positive exactly when some persona or job term occurs |
| Scoring.ScoreOrderIndependent | persona_analyzer.py:38-44 | any two walks of the same persona and job sets give the same score |
| Paragraphs.MatchEndSpec | persona_analyzer.py:25 | a match attempted at a position is a `\n\s*\n` and the longest one there; a failed attempt means none starts there |
| Paragraphs.LeftmostMatchesExist | persona_analyzer.py:25 | the matches the engine finds (`Paragraphs.EngineCuts`) are the leftmost-longest matches of `\n\s*\n` (`Paragraphs.LeftmostMatches`): each is the first break at or after the end of the previous one, taken as long as it goes, and no break starts after the last |
| Paragraphs.EngineCutsMatch | persona_analyzer.py:25 | searching on from a position with no break behind it, the engine's matches are the leftmost-longest ones |
| Paragraphs.EngineFindsLongest | persona_analyzer.py:25 | at the start of a longest break the engine matches exactly that break |
| Paragraphs.EngineSkips | persona_analyzer.py:25 | where no break starts the engine finds no match |
| Paragraphs.SplitFromPieces | persona_analyzer.py:25 | the split from any search position is the text before, between and after the matches still ahead |
| Paragraphs.RegexSplitCharacterized | persona_analyzer.py:25 | `re.split(r"\n\s*\n", text)` (`Paragraphs.RegexSplit`) is exactly the text before, between and after the leftmost-longest matches (`Paragraphs.Pieces`): piece k runs from the end of match k to the start of match k + 1 |
| Paragraphs.RegexSplitHasNoBreak | persona_analyzer.py:25 | `re.split(r"\n\s*\n", text)` (`Paragraphs.RegexSplit`): no piece of the split contains a paragraph break |
| Paragraphs.RegexSplitWithoutNewline | persona_analyzer.py:25 | text without a line break is returned whole |
| Paragraphs.StripPiecesSpec | persona_analyzer.py:25 | the paragraphs are non-empty and stripped, and are exactly the non-empty stripped pieces |
| Paragraphs.StripPiecesClean | persona_analyzer.py:25 | every paragraph is non-empty and stripping it again changes nothing |
| Paragraphs.StripPiecesMembers | persona_analyzer.py:25 | a text is a paragraph exactly when it is non-empty and some piece strips to it |
| Paragraphs.StripEachAt | persona_analyzer.py:25 | stripped piece k is `pieces[k].strip()` |
| Paragraphs.StripPiecesIsFilter | persona_analyzer.py:25 | the comprehension keeps, in order, the stripped pieces that are not empty |
| Seqs.FilterAt | persona_analyzer.py:25 | a filter (here the `if p` of the comprehension) keeps element i from the i-th kept position |
| Seqs.KeptPositionsOrdered | persona_analyzer.py:25 | the kept positions strictly increase and list exactly the elements the filter accepts |
| Seqs.FilterMembers | persona_analyzer.py:25 | the kept elements are exactly the elements the filter accepts |
| Paragraphs.StripPiecesOrder | persona_analyzer.py:25 | the paragraphs keep piece order and multiplicity: paragraph i is the stripped piece at the i-th of a strictly increasing list of positions, and a position is listed exactly when its piece does not strip to nothing |
| Paragraphs.SplitIntoParagraphsSpec | persona_analyzer.py:24-25 | `split_into_paragraphs` in full: paragraph i is the stripped text between consecutive leftmost-longest matches at the i-th position where that text is not blank, in order, and every non-blank piece is listed |
| Paragraphs.ParagraphsAreStripped | persona_analyzer.py:24-25 | `split_into_paragraphs` (`Paragraphs.SplitIntoParagraphs`): every paragraph is non-empty and has no whitespace at either end |
| Paragraphs.CleanLowerShape | persona_analyzer.py:18-21 | the ranker's `clean_text` (`Paragraphs.CleanLower`): the cleaned, lower-cased text has no line break and no whitespace at either end |
| Paragraphs.CleanShape | persona_analyzer.py:18-21 | collapsing and stripping leaves no line break and no whitespace at either end |
| Paragraphs.PageIsOneParagraph | persona_analyzer.py:57-58 | a cleaned page gives no paragraph when empty and otherwise exactly one, the whole cleaned text |
| Paragraphs.CleanLowerEmpty | persona_analyzer.py:18-21 | the cleaned text is empty exactly when the input has no word |
| ScoreSort.InsertDesc | persona_analyzer.py:71 | inserting into a descending list keeps it descending and one longer |
| ScoreSort.SortByScore | persona_analyzer.py:71 | the sorted list is in non-increasing score order and as long as the input |
| ScoreSort.SortIsPermutation | persona_analyzer.py:71 | the sort is a permutation of the candidates |
| ScoreSort.SortIsStable | persona_analyzer.py:71 | for every score, the candidates with that score keep their discovery order |
| ScoreSort.SortedStableUnique | persona_analyzer.py:71 | two descending lists that agree on the order within every score are equal |
| ScoreSort.SortCharacterized | persona_analyzer.py:71 | the sort is the only descending ordering that keeps the order within every score |
| Ranking.SectionTitle | persona_analyzer.py:66 | a paragraph of at most 80 characters is its own title, a longer one gets 83 characters ending in "...", and either way the title starts with the paragraph's first characters |
| Ranking.PageIsOneUnit | persona_analyzer.py:56-60 | a page contributes at most one paragraph, its whole cleaned text, with file name and page index |
| Ranking.DocUnitsAppend | persona_analyzer.py:56-60 | the paragraphs of a file come page by page in page order, the later pages numbered on from the earlier ones |
| Ranking.UnitsAppend | persona_analyzer.py:49-60 | the paragraphs of a file listing come file by file in listing order |
| Ranking.FileUnitsMembers | persona_analyzer.py:49-60 | a file contributes the paragraphs of its pages, with its name and page index, when its name ends in ".pdf", and nothing otherwise |
| Ranking.UnitsMembers | persona_analyzer.py:49-60 | the paragraphs walked (`Ranking.Units`) are exactly the paragraphs of the pages of the `.pdf` files, each with its file name and 0-based page index |
| Ranking.PageMember | persona_analyzer.py:57-58 | a paragraph of a cleaned page is its whole cleaned text, and there is one exactly when that text is not empty |
| Ranking.UnitsArePages | persona_analyzer.py:49-60 | the paragraphs walked are exactly the non-empty cleaned texts of the pages of the `.pdf` files, each with its file name and 0-based page index |
| Ranking.CandidatesSpec | persona_analyzer.py:60-68 | the candidates (`Ranking.Candidates`) are exactly the paragraphs with positive score, with their file, page, title and score |
| Ranking.CandidatesIsFilter | persona_analyzer.py:60-68 | the loop's candidates are the scored paragraphs, in discovery order, with those not scoring above zero left out |
| Ranking.CandidatesAt | persona_analyzer.py:60-68 | candidate i is built from the paragraph at the i-th candidate position |
| Ranking.PositionsIncrease | persona_analyzer.py:60-68 | the candidate positions strictly increase |
| Ranking.PositionsComplete | persona_analyzer.py:60-68 | a position is a candidate position exactly when its paragraph scores above zero |
| Ranking.CandidatesOrder | persona_analyzer.py:60-68 | the candidates keep discovery order: candidate i is built from the paragraph at the i-th of a strictly increasing list of positions, and a position is listed exactly when its paragraph scores above zero |
| Ranking.AnalyzeSpec | persona_analyzer.py:70-77 | `analyze_documents` (`Ranking.AnalyzeDocuments`): at most twenty sections, ranked 1..k without gaps, each the entry at that place of the stable descending sort, none dropped scoring above one kept |
| Ranking.RankCandidates | persona_analyzer.py:70-77 | for any candidate list: the sort is a stable permutation, the top twenty are ranked 1..k in sorted order, and none dropped scores above one kept |
| Ranking.AnalyzeOrderIndependent | persona_analyzer.py:47-77 | the ranked sections do not depend on the order the term sets are walked |
| Ranking.NoPdfNoSections | persona_analyzer.py:49-51 | with no `.pdf` file there is nothing to rank |
| Ranking.PdfNames | persona_analyzer.py:95 | the listed documents are exactly the names ending in ".pdf" |
| Ranking.TermSetsNonEmpty | persona_analyzer.py:82-89 | the persona and job term sets (`Ranking.PersonaTerms`, `Ranking.JobTerms`): every persona and job term is non-empty; each persona (job) term is a word of the cleaned role, expertise and focus areas (of the cleaned job), or a term of the synonym table, and every such word is a term |
| Ranking.KeptIffTermOccurs | persona_analyzer.py:61-62 | a paragraph is kept exactly when a persona or job term occurs in it |
| Ranking.Enumerate | persona_analyzer.py:40 | the walk lists every member of a term set exactly once |
| Ranking.GenerateOutput | persona_analyzer.py:80-101 | the metadata holds the PDF names, persona, job and timestamp, and the sections are those of every walk of the term sets |

## Left out

- PDF access (`fitz.open`, `page.get_text`): documents and page texts are inputs.
- Directory listing: the file list is an input sequence, and both listings in `generate_output` are taken to return the same list.
- File writes, `json.dump` and `print`: left out.
- `process_all_pdfs` and `run.py`: I/O and command-line glue.
- `datetime.now()`: the timestamp is a parameter of `Ranking.GenerateOutput`.
- Unicode NFKC normalisation: it is the identity here.
- `str.lower()` and `str.isdigit()`: ASCII approximations.
- `\s`: modelled as exactly Python's `str.isspace()` set.
- `round(span["size"], 1)`: sizes are given as integers in tenths, so there are no floating-point values.
- The nested block/line/span dictionaries of the PDF library: each page is a flat span sequence in reading order.
- The persona record's JSON shape: each field is an `Option`, and a missing field counts as empty text or an empty list. A present but non-string value (which would make `clean_text` raise) is not modelled.
- Extractor.MostCommon: the contract states only that the result has maximal count. The model returns the first such text in counting order, as `Counter.most_common(1)` does.
- Ranking.Enumerate: the contract fixes only which terms are listed, not their order, because Python's set order is unspecified. `Ranking.AnalyzeOrderIndependent` shows the order does not matter.

=== FILE: decimal.dfy ===
/** Decimal rendering of a natural number, as `str(n)` / `f"{n}"` produce it,
    together with its inverse. */
module Decimal {

  predicate IsDigit(c: char) {
    '0' <= c <= '9'
  }

  function DigitChar(d: nat): (c: char)
    requires d < 10
    ensures IsDigit(c)
  {
    ('0' as int + d) as char
  }

  function DigitValue(c: char): nat {
    if IsDigit(c) then c as int - '0' as int else 0
  }

  /** `str(n)` for a non-negative integer. */
  function NatToDecimal(n: nat): (s: string)
    ensures |s| >= 1
    ensures forall i :: 0 <= i < |s| ==> IsDigit(s[i])
  {
    if n < 10 then [DigitChar(n)] else NatToDecimal(n / 10) + [DigitChar(n % 10)]
  }

  /** `int(s)` for a string of decimal digits. */
  function ParseDecimal(s: string): nat {
    if s == [] then 0 else 10 * ParseDecimal(s[..|s| - 1]) + DigitValue(s[|s| - 1])
  }

  /** Reading the rendered number back gives the number. */
  lemma {:induction false} DecimalRoundTrip(n: nat)
    ensures ParseDecimal(NatToDecimal(n)) == n
  {
    if n >= 10 {
      var s := NatToDecimal(n);
      assert s[..|s| - 1] == NatToDecimal(n / 10);
      DecimalRoundTrip(n / 10);
    }
  }

  /** Distinct numbers render to distinct strings. */
  lemma DecimalInjective(m: nat, n: nat)
    requires m != n
    ensures NatToDecimal(m) != NatToDecimal(n)
  {
    DecimalRoundTrip(m);
    DecimalRoundTrip(n);
  }
}

=== FILE: docmodel.dfy ===
/** The document model the outline extractor reads. The PDF library is not
    modelled: a document is given as its pages, and a page as its text spans
    in reading order (blocks, then lines, then spans, flattened). */
module DocModel {

  /** One text span. `size` is the font size already rounded to one decimal
      place, written in tenths of a point (12.5pt is 125). */
  datatype Span = Span(text: string, size: int)

  datatype Page = Page(spans: seq<Span>)

  /** A PDF file as its pages in order. */
  datatype Document = Document(pages: seq<Page>)
}

=== FILE: extractor.dfy ===
/** `extract_outline` of extractor.py: one pass over the spans of a document
    that filters them, tracks a provisional title on the first two pages and
    emits an outline entry per span; then the merge and the title choice. */
module Extractor {
  import opened Wrappers
  import opened TextNorm
  import opened DocModel
  import opened FontLevels
  import opened HeadingMerge

  /** A span with the 0-based index of its page. */
  datatype Located = Located(page: nat, span: Span)

  /** What the pass accumulates: the outline, the title-candidate texts in
      the order they were counted (the `Counter`), the largest title font
      seen so far and the provisional title. */
  datatype Scan = Scan(outline: seq<Item>, candidates: seq<string>, maxFont: int, title: Option<string>)

  /** The result of `extract_outline`. */
  datatype Extraction = Extraction(title: string, outline: seq<Item>)

  const UntitledDocument: string := "Untitled Document"

  function TagPage(spans: seq<Span>, p: nat): (r: seq<Located>)
    ensures |r| == |spans|
    ensures forall j :: 0 <= j < |spans| ==> r[j] == Located(p, spans[j])
  {
    seq(|spans|, j requires 0 <= j < |spans| => Located(p, spans[j]))
  }

  /** All spans in reading order, each tagged with its page index. */
  function Locate(pages: seq<Page>): (r: seq<Located>)
    ensures forall k :: 0 <= k < |r| ==> r[k].page < |pages| && r[k].span in pages[r[k].page].spans
  {
    if pages == [] then []
    else
      var n := |pages| - 1;
      var pre := Locate(pages[..n]);
      assert forall k :: 0 <= k < |pre| ==> pages[..n][pre[k].page] == pages[pre[k].page];
      pre + TagPage(pages[n].spans, n)
  }

  /** The span filter: the cleaned text has at least two characters, is not
      a URL and is not a bare page number. */
  predicate KeepText(text: string) {
    && |text| >= 2
    && !StartsWith(text, "http://") && !StartsWith(text, "https://")
    && !IsDigits(text)
  }

  /** Every span with its text passed through `clean_text`, which the loop
      does first for each span. */
  function CleanSpans(locs: seq<Located>): (r: seq<Located>)
    ensures |r| == |locs|
    ensures forall k :: 0 <= k < |locs| ==>
      r[k] == Located(locs[k].page, Span(CleanText(locs[k].span.text), locs[k].span.size))
  {
    seq(|locs|, k requires 0 <= k < |locs| =>
      Located(locs[k].page, Span(CleanText(locs[k].span.text), locs[k].span.size)))
  }

  /** One iteration of the span loop, on a span whose text is already cleaned. */
  function ScanSpan(st: Scan, levels: map<int, string>, loc: Located): Scan
  {
    var text := loc.span.text;
    var size := loc.span.size;
    if !KeepText(text) then st
    else
      var counted :=
        if loc.page <= 1 then
          var st' := st.(candidates := st.candidates + [text]);
          if size > st.maxFont then st'.(maxFont := size, title := Some(text)) else st'
        else st;
      if size in levels then counted.(outline := counted.outline + [Item(levels[size], text, loc.page)])
      else counted
  }

  /** The span loop over cleaned spans in reading order, starting from an
      empty outline, no candidates, a running maximum of 0 and no title. */
  function ScanAll(levels: map<int, string>, locs: seq<Located>): Scan
  {
    if locs == [] then Scan([], [], 0, None)
    else ScanSpan(ScanAll(levels, locs[..|locs| - 1]), levels, locs[|locs| - 1])
  }

  // ---------------------------------------------------------------------
  // Reference descriptions of what the pass accumulates
  // ---------------------------------------------------------------------

  /** The spans that pass the filter, in reading order. */
  function Survivors(locs: seq<Located>): (r: seq<Located>)
    ensures |r| <= |locs|
    ensures forall k :: 0 <= k < |r| ==> KeepText(r[k].span.text)
  {
    if locs == [] then []
    else
      var pre := Survivors(locs[..|locs| - 1]);
      var loc := locs[|locs| - 1];
      if KeepText(loc.span.text) then pre + [loc] else pre
  }

  /** The surviving spans on the first two pages. */
  function Early(survivors: seq<Located>): (r: seq<Located>)
    ensures forall k :: 0 <= k < |r| ==> r[k] in survivors && r[k].page <= 1
  {
    if survivors == [] then []
    else
      var pre := Early(survivors[..|survivors| - 1]);
      var s := survivors[|survivors| - 1];
      assert forall k :: 0 <= k < |pre| ==> pre[k] in survivors;
      if s.page <= 1 then pre + [s] else pre
  }

  /** The number of spans on `pages`. */
  function SpanCount(pages: seq<Page>): nat
  {
    if pages == [] then 0
    else SpanCount(pages[..|pages| - 1]) + |pages[|pages| - 1].spans|
  }

  lemma {:induction false} LocateLength(pages: seq<Page>)
    ensures |Locate(pages)| == SpanCount(pages)
  {
    if pages != [] {
      LocateLength(pages[..|pages| - 1]);
    }
  }

  /** The reading-order position of span `j` of page `p`: the number of
      spans on the earlier pages, plus `j`. */
  function Offset(pages: seq<Page>, p: nat, j: nat): nat
    requires p <= |pages|
  {
    SpanCount(pages[..p]) + j
  }

  /** Span `j` of page `p` sits right after the spans of the earlier pages. */
  lemma {:induction false} LocateAt(pages: seq<Page>, p: nat, j: nat)
    requires p < |pages| && j < |pages[p].spans|
    ensures Offset(pages, p, j) < |Locate(pages)|
    ensures Locate(pages)[Offset(pages, p, j)] == Located(p, pages[p].spans[j])
  {
    var n := |pages| - 1;
    var pre := pages[..n];
    LocateLength(pre);
    var front, back := Locate(pre), TagPage(pages[n].spans, n);
    assert Locate(pages) == front + back;
    if p < n {
      LocateAt(pre, p, j);
      assert pre[..p] == pages[..p];
      assert pre[p] == pages[p];
      assert (front + back)[Offset(pre, p, j)] == front[Offset(pre, p, j)];
    } else {
      assert pages[..p] == pre;
      assert (front + back)[|front| + j] == back[j];
    }
  }

  /** Every span of every page is located exactly once, in reading order:
      span `j` of page `p` sits right after the spans of the earlier pages,
      and there are no other entries. */
  lemma {:induction false} LocateSpec(pages: seq<Page>)
    ensures |Locate(pages)| == SpanCount(pages)
    ensures forall p: nat, j: nat :: p < |pages| && j < |pages[p].spans| ==>
      Offset(pages, p, j) < |Locate(pages)| && Locate(pages)[Offset(pages, p, j)] == Located(p, pages[p].spans[j])
  {
    LocateLength(pages);
    forall p: nat, j: nat | p < |pages| && j < |pages[p].spans| {
      LocateAt(pages, p, j);
    }
  }

  /** The reading-order positions of the spans that pass the filter. */
  function SurvivorPositions(locs: seq<Located>): seq<nat>
  {
    if locs == [] then []
    else
      var n := |locs| - 1;
      var pre := SurvivorPositions(locs[..n]);
      if KeepText(locs[n].span.text) then pre + [n] else pre
  }

  /** The survivor positions point into the spans, strictly increase, and
      list a position exactly when its span passes the filter. */
  lemma {:induction false} SurvivorPositionsOrdered(locs: seq<Located>)
    ensures forall i :: 0 <= i < |SurvivorPositions(locs)| ==> SurvivorPositions(locs)[i] < |locs|
    ensures forall i, j :: 0 <= i < j < |SurvivorPositions(locs)| ==>
      SurvivorPositions(locs)[i] < SurvivorPositions(locs)[j]
    ensures forall k :: 0 <= k < |locs| ==> (k in SurvivorPositions(locs) <==> KeepText(locs[k].span.text))
  {
    if locs != [] {
      var n := |locs| - 1;
      var pre := locs[..n];
      SurvivorPositionsOrdered(pre);
      assert forall k :: 0 <= k < n ==> pre[k] == locs[k];
    }
  }

  /** Survivor `i` is the span at survivor position `i`. */
  lemma {:induction false} SurvivorsAt(locs: seq<Located>)
    ensures |SurvivorPositions(locs)| == |Survivors(locs)|
    ensures forall i :: 0 <= i < |SurvivorPositions(locs)| ==>
      SurvivorPositions(locs)[i] < |locs| && Survivors(locs)[i] == locs[SurvivorPositions(locs)[i]]
  {
    if locs != [] {
      var n := |locs| - 1;
      var pre := locs[..n];
      SurvivorsAt(pre);
      assert forall k :: 0 <= k < n ==> pre[k] == locs[k];
    }
  }

  /** The survivors are the spans that pass the filter, all of them, in
      reading order: survivor `i` is the span at position `I[i]`, the
      positions strictly increase, and a position is listed exactly when its
      span passes. */
  lemma {:induction false} SurvivorsSpec(locs: seq<Located>)
    ensures var I := SurvivorPositions(locs);
      && |I| == |Survivors(locs)|
      && (forall i :: 0 <= i < |I| ==> I[i] < |locs| && Survivors(locs)[i] == locs[I[i]])
      && (forall i, j :: 0 <= i < j < |I| ==> I[i] < I[j])
      && (forall k :: 0 <= k < |locs| ==> (k in I <==> KeepText(locs[k].span.text)))
  {
    SurvivorsAt(locs);
    SurvivorPositionsOrdered(locs);
  }

  /** A span survives exactly when it is one of the spans and passes the filter. */
  lemma SurvivorsMembers(locs: seq<Located>)
    ensures forall x :: x in Survivors(locs) <==> x in locs && KeepText(x.span.text)
  {
    SurvivorsSpec(locs);
    var I := SurvivorPositions(locs);
    forall x | x in locs && KeepText(x.span.text)
      ensures x in Survivors(locs)
    {
      var k :| 0 <= k < |locs| && locs[k] == x;
      var i :| 0 <= i < |I| && I[i] == k;
      assert Survivors(locs)[i] == x;
    }
  }

  /** The positions, among the survivors, of those on the first two pages. */
  function EarlyPositions(survivors: seq<Located>): seq<nat>
  {
    if survivors == [] then []
    else
      var n := |survivors| - 1;
      var pre := EarlyPositions(survivors[..n]);
      if survivors[n].page <= 1 then pre + [n] else pre
  }

  /** The early positions point into the survivors, strictly increase, and
      list a position exactly when its survivor is on page 0 or 1. */
  lemma {:induction false} EarlyPositionsOrdered(survivors: seq<Located>)
    ensures forall i :: 0 <= i < |EarlyPositions(survivors)| ==> EarlyPositions(survivors)[i] < |survivors|
    ensures forall i, j :: 0 <= i < j < |EarlyPositions(survivors)| ==>
      EarlyPositions(survivors)[i] < EarlyPositions(survivors)[j]
    ensures forall k :: 0 <= k < |survivors| ==> (k in EarlyPositions(survivors) <==> survivors[k].page <= 1)
  {
    if survivors != [] {
      var n := |survivors| - 1;
      var pre := survivors[..n];
      EarlyPositionsOrdered(pre);
      assert forall k :: 0 <= k < n ==> pre[k] == survivors[k];
    }
  }

  /** Early survivor `i` is the survivor at early position `i`. */
  lemma {:induction false} EarlyAt(survivors: seq<Located>)
    ensures |EarlyPositions(survivors)| == |Early(survivors)|
    ensures forall i :: 0 <= i < |EarlyPositions(survivors)| ==>
      EarlyPositions(survivors)[i] < |survivors| && Early(survivors)[i] == survivors[EarlyPositions(survivors)[i]]
  {
    if survivors != [] {
      var n := |survivors| - 1;
      var pre := survivors[..n];
      EarlyAt(pre);
      assert forall k :: 0 <= k < n ==> pre[k] == survivors[k];
    }
  }

  /** The early survivors are the survivors on pages 0 and 1, all of them,
      in reading order. */
  lemma {:induction false} EarlySpec(survivors: seq<Located>)
    ensures var I := EarlyPositions(survivors);
      && |I| == |Early(survivors)|
      && (forall i :: 0 <= i < |I| ==> I[i] < |survivors| && Early(survivors)[i] == survivors[I[i]])
      && (forall i, j :: 0 <= i < j < |I| ==> I[i] < I[j])
      && (forall k :: 0 <= k < |survivors| ==> (k in I <==> survivors[k].page <= 1))
  {
    EarlyAt(survivors);
    EarlyPositionsOrdered(survivors);
  }

  function Texts(locs: seq<Located>): (r: seq<string>)
    ensures |r| == |locs|
    ensures forall k :: 0 <= k < |locs| ==> r[k] == locs[k].span.text
  {
    seq(|locs|, k requires 0 <= k < |locs| => locs[k].span.text)
  }

  /** One outline entry per surviving span whose size has a level, in order. */
  function Headings(levels: map<int, string>, survivors: seq<Located>): (r: seq<Item>)
    ensures |r| <= |survivors|
  {
    if survivors == [] then []
    else
      var pre := Headings(levels, survivors[..|survivors| - 1]);
      var s := survivors[|survivors| - 1];
      if s.span.size in levels then pre + [Item(levels[s.span.size], s.span.text, s.page)] else pre
  }

  /** The provisional-title bookkeeping over the early survivors `early`:
      `maxFont` is the largest size among them (or 0 when none exceeds 0),
      and the title is set exactly when that maximum exceeds 0, to the text
      of the FIRST span having it; a later span of equal size never wins. */
  ghost predicate TitleTracked(early: seq<Located>, maxFont: int, title: Option<string>) {
    && maxFont >= 0
    && (forall k :: 0 <= k < |early| ==> early[k].span.size <= maxFont)
    && (title.None? <==> maxFont == 0)
    && (title.Some? ==> exists k :: (0 <= k < |early| && early[k].span.text == title.value
          && early[k].span.size == maxFont
          && forall j :: 0 <= j < k ==> early[j].span.size < maxFont))
  }

  /** The pass's outline holds one entry per surviving span whose size is
      labelled, in reading order. */
  lemma {:induction false} ScanOutline(levels: map<int, string>, locs: seq<Located>)
    ensures ScanAll(levels, locs).outline == Headings(levels, Survivors(locs))
  {
    if locs != [] {
      var pre, loc := locs[..|locs| - 1], locs[|locs| - 1];
      ScanOutline(levels, pre);
      assert ScanAll(levels, locs) == ScanSpan(ScanAll(levels, pre), levels, loc);
      SurvivorsStep(locs);
      var S := Survivors(pre);
      if KeepText(loc.span.text) {
        assert (S + [loc])[..|S|] == S;
      }
    }
  }

  /** The pass's title candidates are the texts of the surviving spans on
      pages 0 and 1, in reading order. */
  lemma {:induction false} ScanCandidates(levels: map<int, string>, locs: seq<Located>)
    ensures ScanAll(levels, locs).candidates == Texts(Early(Survivors(locs)))
  {
    if locs != [] {
      var pre, loc := locs[..|locs| - 1], locs[|locs| - 1];
      ScanCandidates(levels, pre);
      var st := ScanAll(levels, pre);
      assert ScanAll(levels, locs) == ScanSpan(st, levels, loc);
      SurvivorsStep(locs);
      var S := Survivors(pre);
      if KeepText(loc.span.text) {
        EarlyStep(S, loc);
      }
      CandidatesStep(st, levels, loc, Early(S));
    }
  }

  /** One iteration appends the text of an early survivor to the candidates. */
  lemma CandidatesStep(st: Scan, levels: map<int, string>, loc: Located, early: seq<Located>)
    requires st.candidates == Texts(early)
    ensures var early' := if KeepText(loc.span.text) && loc.page <= 1 then early + [loc] else early;
      ScanSpan(st, levels, loc).candidates == Texts(early')
  {
    if KeepText(loc.span.text) && loc.page <= 1 {
      assert Texts(early + [loc]) == Texts(early) + [loc.span.text];
    }
  }

  lemma SurvivorsStep(locs: seq<Located>)
    requires locs != []
    ensures var pre, loc := locs[..|locs| - 1], locs[|locs| - 1];
      Survivors(locs) == if KeepText(loc.span.text) then Survivors(pre) + [loc] else Survivors(pre)
  {
  }

  lemma EarlyStep(S: seq<Located>, loc: Located)
    ensures Early(S + [loc]) == if loc.page <= 1 then Early(S) + [loc] else Early(S)
  {
    assert (S + [loc])[..|S|] == S;
  }

  /** The pass tracks the provisional title as `TitleTracked` describes. */
  lemma {:induction false} ScanTitle(levels: map<int, string>, locs: seq<Located>)
    ensures TitleTracked(Early(Survivors(locs)), ScanAll(levels, locs).maxFont, ScanAll(levels, locs).title)
  {
    if locs != [] {
      var pre, loc := locs[..|locs| - 1], locs[|locs| - 1];
      ScanTitle(levels, pre);
      var st := ScanAll(levels, pre);
      assert ScanAll(levels, locs) == ScanSpan(st, levels, loc);
      SurvivorsStep(locs);
      var S := Survivors(pre);
      if KeepText(loc.span.text) {
        EarlyStep(S, loc);
      }
      TitleStep(st, levels, loc, Early(S));
    }
  }

  /** One iteration keeps `TitleTracked` over the early survivors. */
  lemma TitleStep(st: Scan, levels: map<int, string>, loc: Located, early: seq<Located>)
    requires TitleTracked(early, st.maxFont, st.title)
    ensures var early' := if KeepText(loc.span.text) && loc.page <= 1 then early + [loc] else early;
      TitleTracked(early', ScanSpan(st, levels, loc).maxFont, ScanSpan(st, levels, loc).title)
  {
    if KeepText(loc.span.text) && loc.page <= 1 {
      TrackStep(early, st.maxFont, st.title, loc);
    }
  }

  /** One step of the title tracker keeps `TitleTracked`. */
  lemma TrackStep(early: seq<Located>, maxFont: int, title: Option<string>, sv: Located)
    requires TitleTracked(early, maxFont, title)
    ensures sv.span.size > maxFont ==> TitleTracked(early + [sv], sv.span.size, Some(sv.span.text))
    ensures sv.span.size <= maxFont ==> TitleTracked(early + [sv], maxFont, title)
  {
    var e := early + [sv];
    if sv.span.size > maxFont {
      assert e[|early|] == sv;
      forall j | 0 <= j < |early|
        ensures e[j].span.size < sv.span.size
      {
        assert e[j] == early[j];
      }
    } else {
      if title.Some? {
        var k :| 0 <= k < |early| && early[k].span.text == title.value
          && early[k].span.size == maxFont
          && forall j :: 0 <= j < k ==> early[j].span.size < maxFont;
        assert e[k] == early[k];
        assert forall j :: 0 <= j < k ==> e[j] == early[j];
      }
      assert forall k :: 0 <= k < |early| ==> e[k] == early[k];
    }
  }

  /** Every non-empty cleaned text has a word. */
  lemma CleanSpansHaveWords(locs: seq<Located>)
    ensures forall k :: 0 <= k < |locs| && CleanSpans(locs)[k].span.text != [] ==>
      HasWord(CleanSpans(locs)[k].span.text)
  {
    forall k | 0 <= k < |locs| && CleanSpans(locs)[k].span.text != []
      ensures HasWord(CleanSpans(locs)[k].span.text)
    {
      var raw := locs[k].span.text;
      CleanNonEmpty(raw);
      CleanTextIdempotent(raw);
    }
  }

  /** Every surviving text has a word when every non-empty text does. */
  lemma {:induction false} SurvivorsHaveWords(locs: seq<Located>)
    requires forall k :: 0 <= k < |locs| && locs[k].span.text != [] ==> HasWord(locs[k].span.text)
    ensures forall k :: 0 <= k < |Survivors(locs)| ==> HasWord(Survivors(locs)[k].span.text)
  {
    if locs != [] {
      var pre := locs[..|locs| - 1];
      assert forall k :: 0 <= k < |pre| ==> pre[k] == locs[k];
      SurvivorsHaveWords(pre);
      var S := Survivors(pre);
      var r := Survivors(locs);
      assert forall k :: 0 <= k < |S| ==> r[k] == S[k];
    }
  }

  /** A surviving span keeps the size of the span it came from, so with
      every span size labelled, every survivor's size is labelled. */
  lemma {:induction false} SurvivorsLabelled(levels: map<int, string>, locs: seq<Located>)
    requires forall k :: 0 <= k < |locs| ==> locs[k].span.size in levels
    ensures forall k :: 0 <= k < |Survivors(locs)| ==> Survivors(locs)[k].span.size in levels
  {
    if locs != [] {
      var pre := locs[..|locs| - 1];
      assert forall k :: 0 <= k < |pre| ==> pre[k] == locs[k];
      SurvivorsLabelled(levels, pre);
      var S := Survivors(pre);
      var r := Survivors(locs);
      assert forall k :: 0 <= k < |S| ==> r[k] == S[k];
    }
  }

  /** With every survivor's size labelled, there is exactly one entry per
      survivor, carrying its level, text and page. */
  lemma {:induction false} HeadingsOfLabelled(levels: map<int, string>, survivors: seq<Located>)
    requires forall k :: 0 <= k < |survivors| ==> survivors[k].span.size in levels
    ensures |Headings(levels, survivors)| == |survivors|
    ensures forall k :: 0 <= k < |survivors| ==>
      Headings(levels, survivors)[k] == Item(levels[survivors[k].span.size], survivors[k].span.text, survivors[k].page)
  {
    if survivors != [] {
      var pre := survivors[..|survivors| - 1];
      HeadingsOfLabelled(levels, pre);
      var h := Headings(levels, survivors);
      assert forall k :: 0 <= k < |pre| ==> h[k] == Headings(levels, pre)[k] && pre[k] == survivors[k];
    }
  }

  /** The heading texts have words, since survivors' texts do. */
  lemma {:induction false} HeadingsHaveWords(levels: map<int, string>, survivors: seq<Located>)
    requires forall k :: 0 <= k < |survivors| ==> HasWord(survivors[k].span.text)
    ensures forall k :: 0 <= k < |Headings(levels, survivors)| ==> HasWord(Headings(levels, survivors)[k].text)
  {
    if survivors != [] {
      var pre := survivors[..|survivors| - 1];
      assert forall k :: 0 <= k < |pre| ==> pre[k] == survivors[k];
      HeadingsHaveWords(levels, pre);
      var h := Headings(levels, survivors);
      assert forall k :: 0 <= k < |Headings(levels, pre)| ==> h[k] == Headings(levels, pre)[k];
    }
  }

  // ---------------------------------------------------------------------
  // Title finalisation
  // ---------------------------------------------------------------------

  /** `next((item["text"] for item in outline if item["level"] == "H1"), None)`. */
  function FirstH1(outline: seq<Item>): (r: Option<string>)
    ensures r.None? <==> forall i :: 0 <= i < |outline| ==> outline[i].level != "H1"
    ensures r.Some? ==> exists i :: (0 <= i < |outline| && outline[i].level == "H1"
      && outline[i].text == r.value
      && forall j :: 0 <= j < i ==> outline[j].level != "H1")
  {
    if outline == [] then None
    else if outline[0].level == "H1" then Some(outline[0].text)
    else
      var r := FirstH1(outline[1..]);
      assert forall i :: 0 < i < |outline| ==> outline[i] == outline[1..][i - 1];
      r
  }

  /** A text whose count among `xs` is maximal; of several, the first one met. */
  function MostCommonIn(xs: seq<string>, counts: multiset<string>): (r: string)
    requires xs != []
    ensures r in xs
    ensures forall k :: 0 <= k < |xs| ==> counts[xs[k]] <= counts[r]
  {
    if |xs| == 1 then xs[0]
    else
      var rest := MostCommonIn(xs[1..], counts);
      assert forall k :: 1 <= k < |xs| ==> xs[k] == xs[1..][k - 1];
      if counts[xs[0]] >= counts[rest] then xs[0] else rest
  }

  /** `title_candidates.most_common(1)[0][0]`: a most frequent candidate text. */
  function MostCommon(candidates: seq<string>): (r: string)
    requires candidates != []
    ensures r in candidates
    ensures forall c :: c in candidates ==> multiset(candidates)[c] <= multiset(candidates)[r]
  {
    MostCommonIn(candidates, multiset(candidates))
  }

  /** Python truthiness of an optional string. */
  predicate Truthy(o: Option<string>) {
    o.Some? && o.value != ""
  }

  /** Cleaning the space-joined words gives them back unchanged. */
  lemma CleanOfWords(ws: seq<string>)
    requires AllWords(ws)
    ensures CleanText(Join(ws)) == Join(ws)
  {
    CleanTextIsJoinedWords(Join(ws));
    WordsOfJoin(ws);
  }

  /** The fallback title is already clean. */
  lemma UntitledIsClean()
    ensures CleanText(UntitledDocument) == UntitledDocument
  {
    var ws := ["Untitled", "Document"];
    assert AllWords(ws);
    assert Join(ws) == UntitledDocument;
    CleanOfWords(ws);
  }

  /** The title choice after merging, by priority: the first H1 entry, else
      the provisional title, else a most frequent candidate, else
      "Untitled Document"; the chosen text is cleaned once more (the
      fallback is already clean, see `UntitledIsClean`). */
  function FinalizeTitle(outline: seq<Item>, provisional: Option<string>, candidates: seq<string>): (r: string)
    ensures Truthy(FirstH1(outline)) ==> r == CleanText(FirstH1(outline).value)
    ensures !Truthy(FirstH1(outline)) && Truthy(provisional) ==> r == CleanText(provisional.value)
    ensures !Truthy(FirstH1(outline)) && !Truthy(provisional) && candidates != [] && MostCommon(candidates) != "" ==>
      r == CleanText(MostCommon(candidates))
    ensures !Truthy(FirstH1(outline)) && !Truthy(provisional) && (candidates == [] || MostCommon(candidates) == "") ==>
      r == UntitledDocument
  {
    var firstH1 := FirstH1(outline);
    var title :=
      if Truthy(firstH1) then firstH1
      else if !Truthy(provisional) && candidates != [] then Some(MostCommon(candidates))
      else provisional;
    if Truthy(title) then CleanText(title.value) else UntitledDocument
  }

  /** `extract_outline` on a document given as its pages. */
  function ExtractOutline(doc: Document): (r: Extraction)
    ensures NoAdjacentSameKey(r.outline)
  {
    var levels := MapFontToHeadingLevels(AnalyzeFontSizes(doc));
    var st := ScanAll(levels, CleanSpans(Locate(doc.pages)));
    var outline := MergeBrokenHeadings(st.outline);
    Extraction(FinalizeTitle(outline, st.title, st.candidates), outline)
  }

  /** Every span size of the document is a key of its level map. */
  lemma {:induction false} EverySizeLabelled(doc: Document)
    ensures var levels := MapFontToHeadingLevels(AnalyzeFontSizes(doc));
      forall k :: 0 <= k < |CleanSpans(Locate(doc.pages))| ==> CleanSpans(Locate(doc.pages))[k].span.size in levels
  {
    var locs := Locate(doc.pages);
    var sizes := AnalyzeFontSizes(doc);
    forall k | 0 <= k < |locs|
      ensures locs[k].span.size in sizes
    {
      var p := locs[k].page;
      var j :| 0 <= j < |doc.pages[p].spans| && doc.pages[p].spans[j] == locs[k].span;
      assert HasSize(doc.pages, locs[k].span.size);
    }
  }

  /** Before merging, the outline of a document has exactly one entry per
      surviving span, in reading order, labelled by the level map. */
  lemma OutlineBeforeMerge(doc: Document)
    ensures var levels := MapFontToHeadingLevels(AnalyzeFontSizes(doc));
      var survivors := Survivors(CleanSpans(Locate(doc.pages)));
      var unmerged := Headings(levels, survivors);
      && ExtractOutline(doc).outline == MergeBrokenHeadings(unmerged)
      && |unmerged| == |survivors|
      && forall k :: 0 <= k < |survivors| ==>
        (survivors[k].span.size in levels
         && unmerged[k] == Item(levels[survivors[k].span.size], survivors[k].span.text, survivors[k].page))
  {
    var levels := MapFontToHeadingLevels(AnalyzeFontSizes(doc));
    var locs := CleanSpans(Locate(doc.pages));
    EverySizeLabelled(doc);
    SurvivorsLabelled(levels, locs);
    HeadingsOfLabelled(levels, Survivors(locs));
    ScanOutline(levels, locs);
  }

  /** Every text of a document's final outline has a word. */
  lemma OutlineHasWords(doc: Document)
    ensures forall i :: 0 <= i < |ExtractOutline(doc).outline| ==> HasWord(ExtractOutline(doc).outline[i].text)
  {
    var levels := MapFontToHeadingLevels(AnalyzeFontSizes(doc));
    var locs := CleanSpans(Locate(doc.pages));
    ScanOutline(levels, locs);
    CleanSpansHaveWords(Locate(doc.pages));
    SurvivorsHaveWords(locs);
    HeadingsHaveWords(levels, Survivors(locs));
    MergeKeepsWords(ScanAll(levels, locs).outline);
  }

  /** The title of every document is non-empty. */
  lemma TitleNeverEmpty(doc: Document)
    ensures ExtractOutline(doc).title != ""
  {
    var levels := MapFontToHeadingLevels(AnalyzeFontSizes(doc));
    var locs := CleanSpans(Locate(doc.pages));
    var st := ScanAll(levels, locs);
    var first := FirstH1(ExtractOutline(doc).outline);
    if Truthy(first) {
      OutlineHasWords(doc);
      CleanNonEmpty(first.value);
    } else if Truthy(st.title) {
      ScanTitle(levels, locs);
      CleanSpansHaveWords(Locate(doc.pages));
      SurvivorsHaveWords(locs);
      ProvisionalHasWord(Early(Survivors(locs)), Survivors(locs), st.maxFont, st.title);
      CleanNonEmpty(st.title.value);
    } else if st.candidates != [] && MostCommon(st.candidates) != "" {
      ScanCandidates(levels, locs);
      CleanSpansHaveWords(Locate(doc.pages));
      SurvivorsHaveWords(locs);
      CandidateHasWord(Survivors(locs), MostCommon(st.candidates));
      CleanNonEmpty(MostCommon(st.candidates));
    }
  }

  /** The title of a document, in terms of its passes: the first H1 of the
      merged outline when there is one; else the provisional title, which
      is the first early survivor of the largest early size, when that size
      exceeds 0; else a most frequent early survivor text; else
      "Untitled Document". */
  lemma DocumentTitle(doc: Document)
    ensures var levels := MapFontToHeadingLevels(AnalyzeFontSizes(doc));
      var locs := CleanSpans(Locate(doc.pages));
      var E := Early(Survivors(locs));
      var st := ScanAll(levels, locs);
      var r := ExtractOutline(doc);
      && TitleTracked(E, st.maxFont, st.title)
      && (FirstH1(r.outline).Some? ==> r.title == CleanText(FirstH1(r.outline).value))
      && (FirstH1(r.outline).None? && st.title.Some? ==> r.title == CleanText(st.title.value))
      && (FirstH1(r.outline).None? && st.title.None? && E != [] ==> r.title == CleanText(MostCommon(Texts(E))))
      && (FirstH1(r.outline).None? && st.title.None? && E == [] ==> r.title == UntitledDocument)
  {
    var levels := MapFontToHeadingLevels(AnalyzeFontSizes(doc));
    var locs := CleanSpans(Locate(doc.pages));
    var S := Survivors(locs);
    var E := Early(S);
    var st := ScanAll(levels, locs);
    var outline := ExtractOutline(doc).outline;
    ScanTitle(levels, locs);
    ScanCandidates(levels, locs);
    CleanSpansHaveWords(Locate(doc.pages));
    SurvivorsHaveWords(locs);
    if FirstH1(outline).Some? {
      OutlineHasWords(doc);
      var i :| 0 <= i < |outline| && outline[i].text == FirstH1(outline).value;
      assert HasWord(outline[i].text);
    } else if st.title.Some? {
      ProvisionalHasWord(E, S, st.maxFont, st.title);
      var k :| 0 <= k < |S| && S[k].span.text == st.title.value;
      assert HasWord(S[k].span.text);
    } else if E != [] {
      CandidateHasWord(S, MostCommon(Texts(E)));
      var k :| 0 <= k < |S| && S[k].span.text == MostCommon(Texts(E));
      assert HasWord(S[k].span.text);
    }
  }

  lemma ProvisionalHasWord(early: seq<Located>, survivors: seq<Located>, maxFont: int, title: Option<string>)
    requires TitleTracked(early, maxFont, title) && title.Some?
    requires forall k :: 0 <= k < |early| ==> early[k] in survivors
    ensures exists k :: 0 <= k < |survivors| && survivors[k].span.text == title.value
  {
    var k :| 0 <= k < |early| && early[k].span.text == title.value;
    assert early[k] in survivors;
  }

  lemma CandidateHasWord(survivors: seq<Located>, c: string)
    requires c in Texts(Early(survivors))
    ensures exists k :: 0 <= k < |survivors| && survivors[k].span.text == c
  {
    var E := Early(survivors);
    var i :| 0 <= i < |E| && Texts(E)[i] == c;
    assert E[i] in survivors;
  }
}

=== FILE: fontlevels.dfy ===
/** The font-size heading classifier of extractor.py: the distinct span sizes
    of a document, largest first, and the map from size to heading label. */
module FontLevels {
  import opened DocModel
  import opened Decimal

  /** Some span of the document has font size `x`. */
  ghost predicate HasSize(pages: seq<Page>, x: int) {
    exists p, j :: 0 <= p < |pages| && 0 <= j < |pages[p].spans| && pages[p].spans[j].size == x
  }

  predicate StrictlyDescending(s: seq<int>) {
    forall i, j :: 0 <= i < j < |s| ==> s[i] > s[j]
  }

  function SpanSizes(spans: seq<Span>): (r: seq<int>)
    ensures |r| == |spans|
    ensures forall j :: 0 <= j < |spans| ==> r[j] == spans[j].size
  {
    seq(|spans|, j requires 0 <= j < |spans| => spans[j].size)
  }

  /** The `sizes` list built by `analyze_font_sizes`: every span's size, in
      reading order, duplicates kept. */
  function AllSizes(pages: seq<Page>): (r: seq<int>)
    ensures forall x :: x in r <==> HasSize(pages, x)
  {
    if pages == [] then []
    else
      var pre := pages[..|pages| - 1];
      var last := pages[|pages| - 1];
      var r := AllSizes(pre) + SpanSizes(last.spans);
      assert forall x :: HasSize(pages, x) <==> HasSize(pre, x) || x in SpanSizes(last.spans) by {
        forall x | HasSize(pages, x)
          ensures HasSize(pre, x) || x in SpanSizes(last.spans)
        {
          var p, j :| 0 <= p < |pages| && 0 <= j < |pages[p].spans| && pages[p].spans[j].size == x;
          if p < |pre| {
            assert pre[p] == pages[p];
          } else {
            assert SpanSizes(last.spans)[j] == x;
          }
        }
        forall x | HasSize(pre, x)
          ensures HasSize(pages, x)
        {
          var p, j :| 0 <= p < |pre| && 0 <= j < |pre[p].spans| && pre[p].spans[j].size == x;
          assert pages[p] == pre[p];
        }
        forall x | x in SpanSizes(last.spans)
          ensures HasSize(pages, x)
        {
          var j :| 0 <= j < |last.spans| && SpanSizes(last.spans)[j] == x;
          assert pages[|pages| - 1].spans[j].size == x;
        }
      }
      r
  }

  lemma DescendingCons(h: int, t: seq<int>)
    requires StrictlyDescending(t)
    requires forall k :: 0 <= k < |t| ==> t[k] < h
    ensures StrictlyDescending([h] + t)
  {
    var r := [h] + t;
    forall i, j | 0 <= i < j < |r|
      ensures r[i] > r[j]
    {
      assert r[j] == t[j - 1];
      if i > 0 {
        assert r[i] == t[i - 1];
      }
    }
  }

  /** Adds `x` to a strictly descending list unless it is already there. */
  function InsertDistinct(s: seq<int>, x: int): (r: seq<int>)
    requires StrictlyDescending(s)
    ensures StrictlyDescending(r)
    ensures forall y :: y in r <==> y in s || y == x
  {
    if s == [] then [x]
    else if x > s[0] then
      DescendingCons(x, s);
      [x] + s
    else if x == s[0] then s
    else
      var tail := InsertDistinct(s[1..], x);
      assert forall k :: 0 <= k < |tail| ==> tail[k] < s[0] by {
        forall k | 0 <= k < |tail|
          ensures tail[k] < s[0]
        {
          assert tail[k] in tail;
          if tail[k] != x {
            var j :| 0 <= j < |s[1..]| && s[1..][j] == tail[k];
            assert s[j + 1] == tail[k];
          }
        }
      }
      DescendingCons(s[0], tail);
      assert s == [s[0]] + s[1..];
      [s[0]] + tail
  }

  /** `sorted(set(xs), reverse=True)`. */
  function DistinctDescending(xs: seq<int>): (r: seq<int>)
    ensures StrictlyDescending(r)
    ensures forall y :: y in r <==> y in xs
  {
    if xs == [] then []
    else InsertDistinct(DistinctDescending(xs[..|xs| - 1]), xs[|xs| - 1])
  }

  /** `analyze_font_sizes`: the document's distinct font sizes, largest first. */
  function AnalyzeFontSizes(doc: Document): (r: seq<int>)
    ensures StrictlyDescending(r)
    ensures forall x :: x in r <==> HasSize(doc.pages, x)
  {
    DistinctDescending(AllSizes(doc.pages))
  }

  /** A strictly descending list is determined by its elements, so the sorted
      size list is the only possible listing of the size set. */
  lemma {:induction false} StrictlyDescendingUnique(a: seq<int>, b: seq<int>)
    requires StrictlyDescending(a) && StrictlyDescending(b)
    requires forall x :: x in a <==> x in b
    ensures a == b
  {
    assert a == [] <==> b == [] by {
      if a != [] {
        assert a[0] in b;
      }
      if b != [] {
        assert b[0] in a;
      }
    }
    if a != [] {
      assert a[0] in a;
      assert b[0] in b;
      assert a[0] == b[0] by {
        var i :| 0 <= i < |b| && b[i] == a[0];
        var j :| 0 <= j < |a| && a[j] == b[0];
        assert b[0] >= b[i];
        assert a[0] >= a[j];
      }
      forall x
        ensures x in a[1..] <==> x in b[1..]
      {
        if x in a[1..] {
          assert x in b;
          assert x != b[0];
        }
        if x in b[1..] {
          assert x in a;
          assert x != a[0];
        }
      }
      StrictlyDescendingUnique(a[1..], b[1..]);
      assert a == [a[0]] + a[1..];
      assert b == [b[0]] + b[1..];
    }
  }

  /** The label of the size at 0-based rank `i`. The source spells out the
      first three ranks and formats the rest; all agree with `f"H{i+1}"`. */
  function LevelLabel(i: nat): (r: string)
    ensures r == "H" + NatToDecimal(i + 1)
  {
    if i == 0 then "H1"
    else if i == 1 then "H2"
    else if i == 2 then "H3"
    else "H" + NatToDecimal(i + 1)
  }

  /** Distinct ranks get distinct labels. */
  lemma LevelLabelInjective(i: nat, j: nat)
    requires i != j
    ensures LevelLabel(i) != LevelLabel(j)
  {
    DecimalInjective(i + 1, j + 1);
    assert LevelLabel(i)[1..] == NatToDecimal(i + 1);
    assert LevelLabel(j)[1..] == NatToDecimal(j + 1);
  }

  /** Position `i` holds the last occurrence of its value. */
  predicate LastOccurrence(s: seq<int>, i: nat)
    requires i < |s|
  {
    forall j :: i < j < |s| ==> s[j] != s[i]
  }

  /** Which rank each size ends up with when the list is walked in order
      and a later occurrence overwrites an earlier one. */
  function RankOf(sizes: seq<int>): (m: map<int, nat>)
    ensures forall x :: x in m <==> x in sizes
    ensures forall i :: 0 <= i < |sizes| && LastOccurrence(sizes, i) ==> sizes[i] in m && m[sizes[i]] == i
  {
    if sizes == [] then map[]
    else
      var n := |sizes| - 1;
      var pre := sizes[..n];
      assert sizes == pre + [sizes[n]];
      assert forall i :: 0 <= i < n && LastOccurrence(sizes, i) ==> LastOccurrence(pre, i);
      RankOf(pre)[sizes[n] := n]
  }

  /** `map_font_to_heading_levels`: the size at rank i gets label "H{i+1}";
      a repeated size keeps its last rank. */
  function MapFontToHeadingLevels(sizes: seq<int>): (m: map<int, string>)
    ensures forall x :: x in m <==> x in sizes
    ensures forall i :: 0 <= i < |sizes| && LastOccurrence(sizes, i) ==> sizes[i] in m && m[sizes[i]] == LevelLabel(i)
  {
    var ranks := RankOf(sizes);
    map x | x in ranks :: LevelLabel(ranks[x])
  }

  /** On a list without repeats (the sorted size list), distinct sizes map to
      distinct labels. */
  lemma LevelsDistinct(sizes: seq<int>, a: int, b: int)
    requires StrictlyDescending(sizes)
    requires a in sizes && b in sizes && a != b
    ensures MapFontToHeadingLevels(sizes)[a] != MapFontToHeadingLevels(sizes)[b]
  {
    var i :| 0 <= i < |sizes| && sizes[i] == a;
    var j :| 0 <= j < |sizes| && sizes[j] == b;
    LevelLabelInjective(i, j);
  }

  /** The largest font size of a document with at least one span heads the
      size list and is labelled "H1". */
  lemma LargestIsH1(doc: Document, x: int)
    requires HasSize(doc.pages, x)
    ensures AnalyzeFontSizes(doc) != []
    ensures forall y :: HasSize(doc.pages, y) ==> y <= AnalyzeFontSizes(doc)[0]
    ensures MapFontToHeadingLevels(AnalyzeFontSizes(doc))[AnalyzeFontSizes(doc)[0]] == "H1"
  {
    var sizes := AnalyzeFontSizes(doc);
    assert x in sizes;
    forall y | HasSize(doc.pages, y)
      ensures y <= sizes[0]
    {
      assert y in sizes;
    }
    assert LastOccurrence(sizes, 0);
  }
}

=== FILE: keywords.dfy ===
/** `SYNONYMS` and `expand_keywords` of persona_analyzer.py: a keyword set
    grows by every synonym group that one of its keywords belongs to. */
module Keywords {

  /** One entry of the synonym table: a canonical term and its synonyms. */
  datatype Group = Group(canonical: string, synonyms: seq<string>)

  /** The fixed synonym table, in the table's own order. */
  const Synonyms: seq<Group> := [
    Group("methodology", ["approach", "technique", "procedure"]),
    Group("dataset", ["data", "corpus", "records"]),
    Group("performance", ["accuracy", "efficiency", "results"]),
    Group("analysis", ["evaluation", "examination", "assessment"]),
    Group("review", ["survey", "summary", "overview"])
  ]

  /** The canonical term together with its synonyms. */
  function Members(g: Group): (r: set<string>)
    ensures forall w :: w in r <==> w == g.canonical || w in g.synonyms
  {
    {g.canonical} + set w | w in g.synonyms
  }

  /** Some keyword is the canonical term or one of the synonyms of `g`. */
  predicate Triggered(keywords: set<string>, g: Group) {
    Members(g) * keywords != {}
  }

  /** No term belongs to two groups. */
  predicate Disjoint(groups: seq<Group>) {
    forall i, j, w :: 0 <= i < j < |groups| && w in Members(groups[i]) ==> w !in Members(groups[j])
  }

  /** The expansion loop over `groups`: every triggered group is added whole. */
  function Expand(keywords: set<string>, groups: seq<Group>): (r: set<string>)
    ensures keywords <= r
    ensures forall g :: g in groups && Triggered(keywords, g) ==> Members(g) <= r
    ensures forall w :: w in r ==>
      w in keywords || exists g :: g in groups && Triggered(keywords, g) && w in Members(g)
  {
    if groups == [] then keywords
    else
      var pre := groups[..|groups| - 1];
      var g := groups[|groups| - 1];
      var r := Expand(keywords, pre);
      assert forall h :: h in pre ==> h in groups;
      assert groups == pre + [g];
      if Triggered(keywords, g) then r + Members(g) else r
  }

  /** `expand_keywords` with the fixed table: every keyword is kept, a
      keyword that is a canonical term or a synonym brings in its whole
      group, and every added term comes from such a group. */
  function ExpandKeywords(keywords: set<string>): (r: set<string>)
    ensures keywords <= r
    ensures forall g :: g in Synonyms && Triggered(keywords, g) ==> Members(g) <= r
    ensures forall w :: w in r ==>
      w in keywords || exists g :: g in Synonyms && Triggered(keywords, g) && w in Members(g)
  {
    Expand(keywords, Synonyms)
  }

  /** The five groups of the table share no term. */
  lemma SynonymsDisjoint()
    ensures Disjoint(Synonyms)
  {
    forall i, j, w | 0 <= i < j < |Synonyms| && w in Members(Synonyms[i])
      ensures w !in Members(Synonyms[j])
    {
      TwoGroupsDisjoint(i, j);
    }
  }

  /** The terms of the table, group by group. */
  const TableTerms: seq<set<string>> := [
    {"methodology", "approach", "technique", "procedure"},
    {"dataset", "data", "corpus", "records"},
    {"performance", "accuracy", "efficiency", "results"},
    {"analysis", "evaluation", "examination", "assessment"},
    {"review", "survey", "summary", "overview"}
  ]

  lemma TwoGroupsDisjoint(i: nat, j: nat)
    requires i < j < |Synonyms|
    ensures Members(Synonyms[i]) * Members(Synonyms[j]) == {}
  {
    GroupTerms(i);
    GroupTerms(j);
    TermsDisjoint(i, j);
  }

  lemma TermsDisjoint(i: nat, j: nat)
    requires i < j < |TableTerms|
    ensures TableTerms[i] * TableTerms[j] == {}
  {
    if i == 0 && j == 1 {
      assert TableTerms[0] * TableTerms[1] == {};
    } else if i == 0 && j == 2 {
      assert TableTerms[0] * TableTerms[2] == {};
    } else if i == 0 && j == 3 {
      assert TableTerms[0] * TableTerms[3] == {};
    } else if i == 0 && j == 4 {
      assert TableTerms[0] * TableTerms[4] == {};
    } else if i == 1 && j == 2 {
      assert TableTerms[1] * TableTerms[2] == {};
    } else if i == 1 && j == 3 {
      assert TableTerms[1] * TableTerms[3] == {};
    } else if i == 1 && j == 4 {
      assert TableTerms[1] * TableTerms[4] == {};
    } else if i == 2 && j == 3 {
      assert TableTerms[2] * TableTerms[3] == {};
    } else if i == 2 && j == 4 {
      assert TableTerms[2] * TableTerms[4] == {};
    } else {
      assert TableTerms[3] * TableTerms[4] == {};
    }
  }

  lemma GroupTerms(k: nat)
    requires k < |Synonyms|
    ensures Members(Synonyms[k]) == TableTerms[k]
  {
  }

  lemma TableTermsNonEmpty(k: nat)
    requires k < |TableTerms|
    ensures forall w :: w in TableTerms[k] ==> w != []
  {
    if k == 0 {
      assert forall w :: w in TableTerms[0] ==> w != [];
    } else if k == 1 {
      assert forall w :: w in TableTerms[1] ==> w != [];
    } else if k == 2 {
      assert forall w :: w in TableTerms[2] ==> w != [];
    } else if k == 3 {
      assert forall w :: w in TableTerms[3] ==> w != [];
    } else {
      assert forall w :: w in TableTerms[4] ==> w != [];
    }
  }

  /** No term of the table is the empty string. */
  lemma MemberNonEmpty(g: Group, w: string)
    requires g in Synonyms && w in Members(g)
    ensures w != []
  {
    var k :| 0 <= k < |Synonyms| && Synonyms[k] == g;
    GroupTerms(k);
    TableTermsNonEmpty(k);
  }

  /** With disjoint groups, expanding twice adds nothing new. */
  lemma ExpandIdempotentFor(keywords: set<string>, groups: seq<Group>)
    requires Disjoint(groups)
    ensures Expand(Expand(keywords, groups), groups) == Expand(keywords, groups)
  {
  }

  /** `expand_keywords` is idempotent. */
  lemma ExpandKeywordsIdempotent(keywords: set<string>)
    ensures ExpandKeywords(ExpandKeywords(keywords)) == ExpandKeywords(keywords)
  {
    SynonymsDisjoint();
    ExpandIdempotentFor(keywords, Synonyms);
  }
}

=== FILE: merge.dfy ===
/** `merge_broken_headings` of extractor.py: consecutive outline entries that
    share level and page are joined into one entry. */
module HeadingMerge {
  import opened TextNorm

  /** One outline entry: level label, text, 0-based page index. */
  datatype Item = Item(level: string, text: string, page: nat)

  predicate SameKey(a: Item, b: Item) {
    a.level == b.level && a.page == b.page
  }

  predicate NoAdjacentSameKey(xs: seq<Item>) {
    forall i :: 0 <= i < |xs| - 1 ==> !SameKey(xs[i], xs[i + 1])
  }

  /** One iteration of the loop: join onto the last merged entry when the key
      matches (and re-clean the text), otherwise append. Either way the
      result ends with the item's key and keeps neighbours apart. */
  function MergeStep(merged: seq<Item>, item: Item): (r: seq<Item>)
    ensures r != [] && SameKey(r[|r| - 1], item)
    ensures |merged| <= |r| <= |merged| + 1
    ensures NoAdjacentSameKey(merged) ==> NoAdjacentSameKey(r)
  {
    if merged != [] && SameKey(merged[|merged| - 1], item) then
      var last := merged[|merged| - 1];
      var t := CleanText(last.text + " " + item.text);
      RetextLastSeparated(merged, t);
      merged[..|merged| - 1] + [last.(text := t)]
    else
      AppendSeparated(merged, item);
      merged + [item]
  }

  lemma RetextLastSeparated(merged: seq<Item>, t: string)
    requires merged != []
    ensures NoAdjacentSameKey(merged) ==>
      NoAdjacentSameKey(merged[..|merged| - 1] + [merged[|merged| - 1].(text := t)])
  {
    var r := merged[..|merged| - 1] + [merged[|merged| - 1].(text := t)];
    assert forall i :: 0 <= i < |r| ==> SameKey(r[i], merged[i]);
  }

  lemma AppendSeparated(merged: seq<Item>, item: Item)
    requires merged == [] || !SameKey(merged[|merged| - 1], item)
    ensures NoAdjacentSameKey(merged) ==> NoAdjacentSameKey(merged + [item])
  {
    var r := merged + [item];
    assert forall i :: 0 <= i < |merged| ==> r[i] == merged[i];
  }

  /** `merge_broken_headings`. */
  function MergeBrokenHeadings(outline: seq<Item>): (r: seq<Item>)
    ensures |r| <= |outline|
    ensures (r == []) == (outline == [])
    ensures NoAdjacentSameKey(r)
    ensures r != [] ==> SameKey(r[|r| - 1], outline[|outline| - 1])
  {
    if outline == [] then []
    else MergeStep(MergeBrokenHeadings(outline[..|outline| - 1]), outline[|outline| - 1])
  }

  // ---------------------------------------------------------------------
  // Reference description: the outline cut into maximal same-key runs
  // ---------------------------------------------------------------------

  function Flatten(runs: seq<seq<Item>>): seq<Item>
  {
    if runs == [] then [] else Flatten(runs[..|runs| - 1]) + runs[|runs| - 1]
  }

  /** `runs` cuts `xs` into non-empty blocks of one key each, and neighbouring
      blocks have different keys. */
  ghost predicate IsRunSplit(xs: seq<Item>, runs: seq<seq<Item>>) {
    && Flatten(runs) == xs
    && (forall i :: 0 <= i < |runs| ==> runs[i] != [])
    && (forall i, j :: 0 <= i < |runs| && 0 <= j < |runs[i]| ==> SameKey(runs[i][j], runs[i][0]))
    && (forall i :: 0 <= i < |runs| - 1 ==> !SameKey(runs[i][0], runs[i + 1][0]))
  }

  /** The run's texts joined by single spaces, in order. */
  function JoinTexts(run: seq<Item>): string
    requires run != []
  {
    if |run| == 1 then run[0].text
    else JoinTexts(run[..|run| - 1]) + " " + run[|run| - 1].text
  }

  /** The entry a run becomes: a lone entry is kept as it is, a longer run
      becomes its cleaned, space-joined text. */
  function Collapsed(run: seq<Item>): Item
    requires run != []
  {
    Item(run[0].level, if |run| == 1 then run[0].text else CleanText(JoinTexts(run)), run[0].page)
  }

  lemma FlattenSnoc(runs: seq<seq<Item>>, r: seq<Item>)
    ensures Flatten(runs + [r]) == Flatten(runs) + r
  {
    assert (runs + [r])[..|runs|] == runs;
  }

  /** The run decomposition, built left to right: an entry joins the last
      run when its key matches that run's, and starts a new run otherwise. */
  function Runs(xs: seq<Item>): (runs: seq<seq<Item>>)
    ensures forall i :: 0 <= i < |runs| ==> runs[i] != []
  {
    if xs == [] then []
    else
      var runs := Runs(xs[..|xs| - 1]);
      var x := xs[|xs| - 1];
      if runs != [] && runs[|runs| - 1] != [] && SameKey(runs[|runs| - 1][0], x) then
        runs[..|runs| - 1] + [runs[|runs| - 1] + [x]]
      else
        runs + [[x]]
  }

  /** Every outline has a run decomposition. */
  lemma {:induction false} RunsSplit(xs: seq<Item>)
    ensures IsRunSplit(xs, Runs(xs))
  {
    if xs == [] {
      assert Flatten([]) == [];
    } else {
      var pre, x := xs[..|xs| - 1], xs[|xs| - 1];
      RunsSplit(pre);
      var runs := Runs(pre);
      assert xs == pre + [x];
      if runs != [] && SameKey(runs[|runs| - 1][0], x) {
        GrowLastRun(pre, runs, x);
      } else {
        StartNewRun(pre, runs, x);
      }
    }
  }

  lemma GrowLastRun(pre: seq<Item>, runs: seq<seq<Item>>, x: Item)
    requires IsRunSplit(pre, runs)
    requires runs != [] && SameKey(runs[|runs| - 1][0], x)
    ensures IsRunSplit(pre + [x], runs[..|runs| - 1] + [runs[|runs| - 1] + [x]])
  {
    var k := |runs|;
    var front, R := runs[..k - 1], runs[k - 1];
    assert runs == front + [R];
    FlattenSnoc(front, R + [x]);
    FlattenSnoc(front, R);
    GrowKeys(runs, x);
  }

  /** Key facts of the grown decomposition. */
  lemma GrowKeys(runs: seq<seq<Item>>, x: Item)
    requires runs != [] && forall i :: 0 <= i < |runs| ==> runs[i] != []
    requires SameKey(runs[|runs| - 1][0], x)
    requires forall i, j :: 0 <= i < |runs| && 0 <= j < |runs[i]| ==> SameKey(runs[i][j], runs[i][0])
    requires forall i :: 0 <= i < |runs| - 1 ==> !SameKey(runs[i][0], runs[i + 1][0])
    ensures var runs' := runs[..|runs| - 1] + [runs[|runs| - 1] + [x]];
      && (forall i :: 0 <= i < |runs'| ==> runs'[i] != [])
      && (forall i, j :: 0 <= i < |runs'| && 0 <= j < |runs'[i]| ==> SameKey(runs'[i][j], runs'[i][0]))
      && (forall i :: 0 <= i < |runs'| - 1 ==> !SameKey(runs'[i][0], runs'[i + 1][0]))
  {
    var k := |runs|;
    var R := runs[k - 1];
    var runs' := runs[..k - 1] + [R + [x]];
    assert forall i :: 0 <= i < k - 1 ==> runs'[i] == runs[i];
    assert runs'[k - 1] == R + [x];
    forall i, j | 0 <= i < |runs'| && 0 <= j < |runs'[i]|
      ensures SameKey(runs'[i][j], runs'[i][0])
    {
      if i == k - 1 && j < |R| {
        assert runs'[i][j] == R[j];
      }
    }
  }

  lemma StartNewRun(pre: seq<Item>, runs: seq<seq<Item>>, x: Item)
    requires IsRunSplit(pre, runs)
    requires runs == [] || !SameKey(runs[|runs| - 1][0], x)
    ensures IsRunSplit(pre + [x], runs + [[x]])
  {
    FlattenSnoc(runs, [x]);
    var runs' := runs + [[x]];
    forall i | 0 <= i < |runs'| - 1
      ensures !SameKey(runs'[i][0], runs'[i + 1][0])
    {
      assert runs'[i] == runs[i];
    }
  }

  /** `merged` holds exactly the collapsed entries of `runs`, in order. */
  predicate CollapsesTo(merged: seq<Item>, runs: seq<seq<Item>>) {
    && |merged| == |runs|
    && forall i :: 0 <= i < |runs| ==> runs[i] != [] && merged[i] == Collapsed(runs[i])
  }

  /** The merge turns each maximal same-key run into its collapsed entry:
      keys are those of the runs (consecutive duplicates removed), and each
      text is the space-joined run, cleaned. */
  lemma {:induction false} MergeCollapsesRuns(xs: seq<Item>)
    ensures CollapsesTo(MergeBrokenHeadings(xs), Runs(xs))
  {
    if xs != [] {
      var pre, x := xs[..|xs| - 1], xs[|xs| - 1];
      MergeCollapsesRuns(pre);
      var merged := MergeBrokenHeadings(pre);
      var runs := Runs(pre);
      assert MergeBrokenHeadings(xs) == MergeStep(merged, x);
      if runs != [] && SameKey(runs[|runs| - 1][0], x) {
        var R := runs[|runs| - 1] + [x];
        var front := runs[..|runs| - 1];
        assert R[..|R| - 1] == runs[|runs| - 1];
        assert front + [R[..|R| - 1]] == runs;
        assert R[0] == runs[|runs| - 1][0];
        AppendToLastRun(merged, front, R);
        assert Runs(xs) == front + [R];
      } else {
        StartRunStep(merged, runs, x);
      }
    }
  }

  /** The merge step for an entry whose key differs from the previous run's. */
  lemma StartRunStep(merged: seq<Item>, front: seq<seq<Item>>, x: Item)
    requires CollapsesTo(merged, front)
    requires front == [] || !SameKey(front[|front| - 1][0], x)
    ensures CollapsesTo(MergeStep(merged, x), front + [[x]])
  {
    var r := MergeStep(merged, x);
    var runs := front + [[x]];
    assert r == merged + [x] by {
      if front != [] {
        assert merged[|merged| - 1] == Collapsed(front[|front| - 1]);
      }
    }
    forall i | 0 <= i < |runs|
      ensures runs[i] != [] && r[i] == Collapsed(runs[i])
    {
      if i < |front| {
        assert runs[i] == front[i];
        assert r[i] == merged[i];
      } else {
        assert runs[i] == [x];
      }
    }
  }

  /** The merge step that adds the last entry of a run to the collapsed
      rest of that run. */
  lemma AppendToLastRun(merged: seq<Item>, front: seq<seq<Item>>, R: seq<Item>)
    requires |R| > 1 && SameKey(R[|R| - 1], R[0])
    requires CollapsesTo(merged, front + [R[..|R| - 1]])
    ensures CollapsesTo(MergeStep(merged, R[|R| - 1]), front + [R])
  {
    var k := |front| + 1;
    var x := R[|R| - 1];
    var R' := R[..|R| - 1];
    var runs := front + [R];
    var r := MergeStep(merged, x);
    var last := merged[k - 1];
    assert last == Collapsed(R') by {
      assert (front + [R'])[k - 1] == R';
    }
    assert r == merged[..k - 1] + [last.(text := CleanText(last.text + " " + x.text))] by {
      assert R'[0] == R[0];
      assert SameKey(last, x);
    }
    assert r[k - 1] == Collapsed(R) by {
      LongerRunText(R);
    }
    forall i | 0 <= i < k
      ensures runs[i] != [] && r[i] == Collapsed(runs[i])
    {
      if i < k - 1 {
        assert runs[i] == front[i];
        assert (front + [R'])[i] == front[i];
        assert r[i] == merged[i];
      }
    }
  }

  /** Joining one more entry onto a collapsed run gives the collapsed longer run. */
  lemma LongerRunText(R: seq<Item>)
    requires |R| > 1
    ensures CleanText(Collapsed(R[..|R| - 1]).text + " " + R[|R| - 1].text) == Collapsed(R).text
  {
    var R' := R[..|R| - 1];
    assert JoinTexts(R) == JoinTexts(R') + " " + R[|R| - 1].text;
    if |R'| > 1 {
      CleanJoinAbsorbs(JoinTexts(R'), R[|R| - 1].text);
    }
  }

  /** An outline without adjacent same-key entries is left as it is. */
  lemma {:induction false} MergeKeepsSeparated(xs: seq<Item>)
    requires NoAdjacentSameKey(xs)
    ensures MergeBrokenHeadings(xs) == xs
  {
    if xs != [] {
      var pre := xs[..|xs| - 1];
      assert NoAdjacentSameKey(pre);
      MergeKeepsSeparated(pre);
      if pre != [] {
        assert !SameKey(pre[|pre| - 1], xs[|xs| - 1]);
      }
      assert xs == pre + [xs[|xs| - 1]];
    }
  }

  /** Merging is idempotent. */
  lemma MergeIdempotent(xs: seq<Item>)
    ensures MergeBrokenHeadings(MergeBrokenHeadings(xs)) == MergeBrokenHeadings(xs)
  {
    MergeKeepsSeparated(MergeBrokenHeadings(xs));
  }

  predicate HasWord(t: string) {
    Words(t) != []
  }

  /** If every entry's text has a word, so does every merged entry's text. */
  lemma {:induction false} MergeKeepsWords(xs: seq<Item>)
    requires forall i :: 0 <= i < |xs| ==> HasWord(xs[i].text)
    ensures forall i :: 0 <= i < |MergeBrokenHeadings(xs)| ==> HasWord(MergeBrokenHeadings(xs)[i].text)
  {
    if xs != [] {
      var pre := xs[..|xs| - 1];
      MergeKeepsWords(pre);
      StepKeepsWords(MergeBrokenHeadings(pre), xs[|xs| - 1]);
    }
  }

  lemma StepKeepsWords(merged: seq<Item>, x: Item)
    requires forall i :: 0 <= i < |merged| ==> HasWord(merged[i].text)
    requires HasWord(x.text)
    ensures forall i :: 0 <= i < |MergeStep(merged, x)| ==> HasWord(MergeStep(merged, x)[i].text)
  {
    var r := MergeStep(merged, x);
    if merged != [] && SameKey(merged[|merged| - 1], x) {
      var last := merged[|merged| - 1];
      var t := CleanText(last.text + " " + x.text);
      assert HasWord(t) by {
        CleanTextIsJoinedWords(last.text + " " + x.text);
        WordsAroundSpace(last.text, x.text);
        WordsOfJoin(Words(last.text + " " + x.text));
      }
      assert r == merged[..|merged| - 1] + [last.(text := t)];
      forall i | 0 <= i < |r|
        ensures HasWord(r[i].text)
      {
        if i < |merged| - 1 {
          assert r[i] == merged[i];
        }
      }
    } else {
      assert r == merged + [x];
      forall i | 0 <= i < |r|
        ensures HasWord(r[i].text)
      {
        if i < |merged| {
          assert r[i] == merged[i];
        }
      }
    }
  }
}

=== FILE: paragraphs.dfy ===
/** `clean_text` and `split_into_paragraphs` of persona_analyzer.py.
    The paragraph splitter is `re.split(r"\n\s*\n", text)` followed by
    stripping every piece and dropping the empty ones; the split is modelled
    the way the regular-expression engine performs it (leftmost match, greedy
    `\s*` that backtracks to the last line break it can end on). */
module Paragraphs {
  import opened Wrappers
  import opened TextNorm
  import opened Seqs

  /** `clean_text` of persona_analyzer.py: collapse whitespace, strip, then
      lower-case. */
  function CleanLower(s: string): string {
    Lower(CleanText(s))
  }

  /** `text[i..e]` is matched by `\n\s*\n`. */
  predicate BreakAt(text: string, i: nat, e: nat) {
    i + 2 <= e <= |text| && text[i] == '\n' && text[e - 1] == '\n'
    && forall m :: i < m < e - 1 ==> IsSpace(text[m])
  }

  /** No paragraph break starts anywhere in `text`. */
  predicate NoBreak(text: string) {
    forall i: nat, e: nat :: i < e <= |text| ==> !BreakAt(text, i, e)
  }

  /** End of the whitespace run starting at `j` (what a greedy `\s*` consumes). */
  function WsEnd(text: string, j: nat): (r: nat)
    requires j <= |text|
    ensures j <= r <= |text|
    ensures forall m :: j <= m < r ==> IsSpace(text[m])
    ensures r == |text| || !IsSpace(text[r])
    decreases |text| - j
  {
    if j < |text| && IsSpace(text[j]) then WsEnd(text, j + 1) else j
  }

  /** The last line break in `text[lo..hi]`, found by backing off from `hi`. */
  function LastNewline(text: string, lo: nat, hi: nat): (r: Option<nat>)
    requires lo <= hi <= |text|
    ensures r.Some? ==> lo <= r.value < hi && text[r.value] == '\n'
    ensures r.Some? ==> forall m :: r.value < m < hi ==> text[m] != '\n'
    ensures r.None? ==> forall m :: lo <= m < hi ==> text[m] != '\n'
    decreases hi - lo
  {
    if hi == lo then None
    else if text[hi - 1] == '\n' then Some(hi - 1)
    else LastNewline(text, lo, hi - 1)
  }

  /** Where a match of `\n\s*\n` attempted at `i` ends, if it succeeds: the
      greedy `\s*` takes the whole whitespace run after the first line
      break and gives characters back until a line break follows. */
  function MatchEnd(text: string, i: nat): (r: Option<nat>)
    requires i < |text|
  {
    if text[i] != '\n' then None
    else
      match LastNewline(text, i + 1, WsEnd(text, i + 1))
      case None => None
      case Some(k) => Some(k + 1)
  }

  /** The engine's match at `i` is a break, and the longest one there; when
      it fails, no break starts at `i`. */
  lemma MatchEndSpec(text: string, i: nat)
    requires i < |text|
    ensures MatchEnd(text, i).Some? ==>
      BreakAt(text, i, MatchEnd(text, i).value)
      && forall e: nat :: BreakAt(text, i, e) ==> e <= MatchEnd(text, i).value
    ensures MatchEnd(text, i).None? ==> forall e: nat :: !BreakAt(text, i, e)
  {
    forall e: nat | BreakAt(text, i, e)
      ensures text[i] == '\n' && e - 1 < WsEnd(text, i + 1) && text[e - 1] == '\n'
    {
      BreakWithinRun(text, i, e);
    }
  }

  lemma BreakWithinRun(text: string, i: nat, e: nat)
    requires BreakAt(text, i, e)
    ensures e - 1 < WsEnd(text, i + 1)
  {
    assert IsSpace(text[e - 1]);
    assert forall m :: i < m < e ==> IsSpace(text[m]);
  }

  /** `re.split` from search position `i`, the current piece starting at `start`. */
  function SplitFrom(text: string, start: nat, i: nat): (r: seq<string>)
    requires start <= i <= |text|
    ensures r != []
    decreases |text| - i
  {
    if i == |text| then [text[start..]]
    else
      match MatchEnd(text, i)
      case Some(e) => [text[start..i]] + SplitFrom(text, e, e)
      case None => SplitFrom(text, start, i + 1)
  }

  /** `re.split(r"\n\s*\n", text)`. */
  function RegexSplit(text: string): (r: seq<string>)
    ensures r != []
  {
    SplitFrom(text, 0, 0)
  }

  /** The stripped pieces that are not empty, in order. */
  function StripPieces(pieces: seq<string>): (r: seq<string>)
    ensures |r| <= |pieces|
  {
    if pieces == [] then []
    else
      var p := Strip(pieces[0]);
      (if p != [] then [p] else []) + StripPieces(pieces[1..])
  }

  /** `split_into_paragraphs`. */
  function SplitIntoParagraphs(text: string): (r: seq<string>)
  {
    StripPieces(RegexSplit(text))
  }

  // ---------------------------------------------------------------------
  // What the splitter returns
  // ---------------------------------------------------------------------

  /** A piece of the split holds no paragraph break. */
  lemma {:induction false} SplitHasNoBreak(text: string, start: nat, i: nat)
    requires start <= i <= |text|
    requires forall m: nat, e: nat :: start <= m < i ==> !BreakAt(text, m, e)
    ensures forall k :: 0 <= k < |SplitFrom(text, start, i)| ==> NoBreak(SplitFrom(text, start, i)[k])
    decreases |text| - i
  {
    if i == |text| {
      SliceHasNoBreak(text, start, i);
      assert text[start..] == text[start..i];
    } else {
      MatchEndSpec(text, i);
      match MatchEnd(text, i)
      case Some(e) =>
        SliceHasNoBreak(text, start, i);
        SplitHasNoBreak(text, e, e);
      case None =>
        SplitHasNoBreak(text, start, i + 1);
    }
  }

  /** A break inside a slice is a break of the whole text. */
  lemma SliceHasNoBreak(text: string, start: nat, stop: nat)
    requires start <= stop <= |text|
    requires forall m: nat, e: nat :: start <= m < stop ==> !BreakAt(text, m, e)
    ensures NoBreak(text[start..stop])
  {
    var p := text[start..stop];
    forall i: nat, e: nat | i < e <= |p| && BreakAt(p, i, e)
      ensures BreakAt(text, start + i, start + e)
    {
      forall m | start + i < m < start + e - 1
        ensures IsSpace(text[m])
      {
        assert text[m] == p[m - start];
      }
    }
  }

  /** No piece of `re.split(r"\n\s*\n", text)` contains a paragraph break. */
  lemma RegexSplitHasNoBreak(text: string)
    ensures forall k :: 0 <= k < |RegexSplit(text)| ==> NoBreak(RegexSplit(text)[k])
  {
    SplitHasNoBreak(text, 0, 0);
  }

  /** Text without a line break is not split. */
  lemma {:induction false} SplitWithoutNewline(text: string, start: nat, i: nat)
    requires start <= i <= |text|
    requires forall m :: 0 <= m < |text| ==> text[m] != '\n'
    ensures SplitFrom(text, start, i) == [text[start..]]
    decreases |text| - i
  {
    if i < |text| {
      SplitWithoutNewline(text, start, i + 1);
    }
  }

  lemma RegexSplitWithoutNewline(text: string)
    requires forall m :: 0 <= m < |text| ==> text[m] != '\n'
    ensures RegexSplit(text) == [text]
  {
    SplitWithoutNewline(text, 0, 0);
  }

  // ---------------------------------------------------------------------
  // The split as the text between leftmost-longest matches
  // ---------------------------------------------------------------------

  /** One match of `\n\s*\n`: `text[start..end]`. */
  datatype Cut = Cut(start: nat, end: nat)

  /** No paragraph break starts at a position of `[lo, hi)` (one may run past `hi`). */
  ghost predicate NoBreakStarts(text: string, lo: nat, hi: nat) {
    forall m: nat, e: nat :: lo <= m < hi ==> !BreakAt(text, m, e)
  }

  /** `c` is a break, and the longest one starting where it starts. */
  ghost predicate LongestBreak(text: string, c: Cut) {
    BreakAt(text, c.start, c.end) && forall e: nat :: BreakAt(text, c.start, e) ==> e <= c.end
  }

  /** `cuts` are the matches a left-to-right search from `from` finds: each
      is the first break at or after the end of the one before, taken as
      long as it goes, and no break starts after the last. */
  ghost predicate LeftmostMatches(text: string, from: nat, cuts: seq<Cut>)
    decreases |cuts|
  {
    if cuts == [] then from <= |text| && NoBreakStarts(text, from, |text|)
    else
      && from <= cuts[0].start
      && NoBreakStarts(text, from, cuts[0].start)
      && LongestBreak(text, cuts[0])
      && LeftmostMatches(text, cuts[0].end, cuts[1..])
  }

  /** The text before, between and after the matches. */
  function Pieces(text: string, from: nat, cuts: seq<Cut>): (r: seq<string>)
    requires LeftmostMatches(text, from, cuts)
    ensures |r| == |cuts| + 1
    decreases |cuts|
  {
    if cuts == [] then [text[from..]]
    else [text[from..cuts[0].start]] + Pieces(text, cuts[0].end, cuts[1..])
  }

  /** The matches the engine finds searching from `i`. */
  function EngineCuts(text: string, i: nat): seq<Cut>
    requires i <= |text|
    decreases |text| - i
  {
    if i == |text| then []
    else
      match MatchEnd(text, i)
      case Some(e) => [Cut(i, e)] + EngineCuts(text, e)
      case None => EngineCuts(text, i + 1)
  }

  /** The engine's matches are the leftmost-longest ones. */
  lemma {:induction false} EngineCutsMatch(text: string, from: nat, i: nat)
    requires from <= i <= |text|
    requires NoBreakStarts(text, from, i)
    ensures LeftmostMatches(text, from, EngineCuts(text, i))
    decreases |text| - i
  {
    if i < |text| {
      MatchEndSpec(text, i);
      match MatchEnd(text, i)
      case Some(e) =>
        EngineCutsMatch(text, e, e);
      case None =>
        EngineCutsMatch(text, from, i + 1);
    }
  }

  /** Every text has its leftmost-longest matches. */
  lemma LeftmostMatchesExist(text: string)
    ensures LeftmostMatches(text, 0, EngineCuts(text, 0))
  {
    EngineCutsMatch(text, 0, 0);
  }

  /** Where the next match starts, or the end of the text when none is left. */
  function NextStart(text: string, cuts: seq<Cut>): nat
  {
    if cuts == [] then |text| else cuts[0].start
  }

  /** The split from search position `i`, with the current piece starting
      at `start`, is the text between the matches still ahead. */
  lemma {:induction false} SplitFromPieces(text: string, start: nat, i: nat, cuts: seq<Cut>)
    requires start <= i <= |text|
    requires LeftmostMatches(text, start, cuts)
    requires i <= NextStart(text, cuts)
    ensures SplitFrom(text, start, i) == Pieces(text, start, cuts)
    decreases |text| - i
  {
    if i == |text| {
      assert cuts == [];
    } else if cuts != [] && i == cuts[0].start {
      var c := cuts[0];
      EngineFindsLongest(text, c);
      SplitFromPieces(text, c.end, c.end, cuts[1..]);
    } else {
      EngineSkips(text, i);
      SplitFromPieces(text, start, i + 1, cuts);
    }
  }

  /** At the start of a longest break the engine matches exactly that break. */
  lemma EngineFindsLongest(text: string, c: Cut)
    requires c.start < |text| && LongestBreak(text, c)
    ensures MatchEnd(text, c.start) == Some(c.end)
  {
    MatchEndSpec(text, c.start);
  }

  /** Where no break starts the engine finds no match. */
  lemma EngineSkips(text: string, i: nat)
    requires i < |text| && forall e: nat :: !BreakAt(text, i, e)
    ensures MatchEnd(text, i) == None
  {
    MatchEndSpec(text, i);
  }

  /** `re.split(r"\n\s*\n", text)` returns the text before, between and
      after the leftmost-longest matches, whichever they are. */
  lemma RegexSplitCharacterized(text: string, cuts: seq<Cut>)
    requires LeftmostMatches(text, 0, cuts)
    ensures RegexSplit(text) == Pieces(text, 0, cuts)
  {
    SplitFromPieces(text, 0, 0, cuts);
  }

  /** Every paragraph is non-empty and has no whitespace at either end, and
      the paragraphs are exactly the non-empty stripped pieces. */
  lemma StripPiecesSpec(pieces: seq<string>)
    ensures forall k :: 0 <= k < |StripPieces(pieces)| ==>
      StripPieces(pieces)[k] != [] && Strip(StripPieces(pieces)[k]) == StripPieces(pieces)[k]
    ensures forall p :: p in StripPieces(pieces) <==> p != [] && exists q :: q in pieces && Strip(q) == p
  {
    StripPiecesClean(pieces);
    StripPiecesMembers(pieces);
  }

  /** Every paragraph is non-empty and stripping it again changes nothing. */
  lemma {:induction false} StripPiecesClean(pieces: seq<string>)
    ensures forall k :: 0 <= k < |StripPieces(pieces)| ==>
      StripPieces(pieces)[k] != [] && Strip(StripPieces(pieces)[k]) == StripPieces(pieces)[k]
  {
    if pieces != [] {
      StripPiecesClean(pieces[1..]);
      var p := Strip(pieces[0]);
      if p != [] {
        StripIdentity(p);
      }
    }
  }

  /** The paragraphs are exactly the non-empty stripped pieces. */
  lemma StripPiecesMembers(pieces: seq<string>)
    ensures forall p :: p in StripPieces(pieces) <==> p != [] && exists q :: q in pieces && Strip(q) == p
  {
    StripPiecesIsFilter(pieces);
    FilterMembers(NonEmpty, StripEach(pieces));
    StripEachAt(pieces);
    var P, S := StripPieces(pieces), StripEach(pieces);
    forall p | p in P
      ensures p != [] && exists q :: q in pieces && Strip(q) == p
    {
      var i :| 0 <= i < |S| && S[i] == p;
      assert pieces[i] in pieces;
    }
    forall p | p != [] && exists q :: q in pieces && Strip(q) == p
      ensures p in P
    {
      var q :| q in pieces && Strip(q) == p;
      var i :| 0 <= i < |pieces| && pieces[i] == q;
      assert S[i] == p && NonEmpty(p);
      assert p in Filter(NonEmpty, S);
    }
  }

  /** Every piece stripped. */
  function StripEach(pieces: seq<string>): (r: seq<string>)
    ensures |r| == |pieces|
  {
    Map(Strip, pieces)
  }

  /** Stripped piece k is piece k stripped. */
  lemma StripEachAt(pieces: seq<string>)
    ensures forall k :: 0 <= k < |pieces| ==> StripEach(pieces)[k] == Strip(pieces[k])
  {
    MapAt(Strip, pieces);
  }

  /** A text with at least one character. */
  predicate NonEmpty(s: string) {
    s != []
  }

  /** Keeping the non-empty stripped pieces is stripping every piece and
      then keeping the non-empty ones. */
  lemma {:induction false} StripPiecesIsFilter(pieces: seq<string>)
    ensures StripPieces(pieces) == Filter(NonEmpty, StripEach(pieces))
  {
    if pieces != [] {
      StripPiecesIsFilter(pieces[1..]);
      var ss := StripEach(pieces);
      assert ss[0] == Strip(pieces[0]);
      assert ss[1..] == StripEach(pieces[1..]);
    }
  }

  /** The positions of the pieces that do not strip to nothing. */
  function StripPositions(pieces: seq<string>): seq<nat>
  {
    KeptPositions(NonEmpty, StripEach(pieces))
  }

  /** The kept pieces in order: paragraph `i` is the stripped piece at the
      `i`-th non-blank position, the positions strictly increase, and a
      position is listed exactly when its piece does not strip to nothing. */
  lemma StripPiecesOrder(pieces: seq<string>)
    ensures var I := StripPositions(pieces);
      && |I| == |StripPieces(pieces)|
      && (forall i :: 0 <= i < |I| ==> I[i] < |pieces| && StripPieces(pieces)[i] == Strip(pieces[I[i]]))
      && (forall i, j :: 0 <= i < j < |I| ==> I[i] < I[j])
      && (forall k :: 0 <= k < |pieces| ==> (k in I <==> Strip(pieces[k]) != []))
  {
    StripPiecesIsFilter(pieces);
    StripEachAt(pieces);
    FilterAt(NonEmpty, StripEach(pieces));
    KeptPositionsOrdered(NonEmpty, StripEach(pieces));
  }

  /** `split_into_paragraphs` in full: paragraph `i` is the stripped text
      between consecutive leftmost-longest matches at the `i`-th position
      where that text is not blank, the positions strictly increase, and
      every non-blank piece is listed. */
  lemma {:induction false} SplitIntoParagraphsSpec(text: string, cuts: seq<Cut>)
    requires LeftmostMatches(text, 0, cuts)
    ensures var pieces := Pieces(text, 0, cuts);
      var I := StripPositions(pieces);
      && |I| == |SplitIntoParagraphs(text)|
      && (forall i :: 0 <= i < |I| ==> I[i] < |pieces| && SplitIntoParagraphs(text)[i] == Strip(pieces[I[i]]))
      && (forall i, j :: 0 <= i < j < |I| ==> I[i] < I[j])
      && (forall k :: 0 <= k < |pieces| ==> (k in I <==> Strip(pieces[k]) != []))
  {
    RegexSplitCharacterized(text, cuts);
    StripPiecesOrder(Pieces(text, 0, cuts));
  }

  /** Stripping text that has no whitespace at either end changes nothing. */
  lemma StripIdentity(s: string)
    requires s == [] || (!IsSpace(s[0]) && !IsSpace(s[|s| - 1]))
    ensures Strip(s) == s
  {
  }

  /** `split_into_paragraphs` returns non-empty, stripped paragraphs. */
  lemma ParagraphsAreStripped(text: string)
    ensures forall k :: 0 <= k < |SplitIntoParagraphs(text)| ==>
      SplitIntoParagraphs(text)[k] != [] && Strip(SplitIntoParagraphs(text)[k]) == SplitIntoParagraphs(text)[k]
  {
    StripPiecesSpec(RegexSplit(text));
  }

  // ---------------------------------------------------------------------
  // After clean_text a page is one paragraph
  // ---------------------------------------------------------------------

  /** The cleaned, lower-cased text has no line break and no whitespace at
      either end. */
  lemma CleanLowerShape(s: string)
    ensures forall m :: 0 <= m < |CleanLower(s)| ==> CleanLower(s)[m] != '\n'
    ensures CleanLower(s) == [] || (!IsSpace(CleanLower(s)[0]) && !IsSpace(CleanLower(s)[|CleanLower(s)| - 1]))
  {
    CleanShape(s);
    LowerShape(CleanText(s));
  }

  /** The cleaned text has no line break and no whitespace at either end. */
  lemma CleanShape(s: string)
    ensures forall m :: 0 <= m < |CleanText(s)| ==> CleanText(s)[m] != '\n'
    ensures CleanText(s) == [] || (!IsSpace(CleanText(s)[0]) && !IsSpace(CleanText(s)[|CleanText(s)| - 1]))
  {
    CleanHasNoNewline(s);
    CleanTextIdempotent(s);
  }

  /** Lower-casing keeps line breaks and whitespace where they are. */
  lemma LowerShape(c: string)
    requires forall m :: 0 <= m < |c| ==> c[m] != '\n'
    requires c == [] || (!IsSpace(c[0]) && !IsSpace(c[|c| - 1]))
    ensures forall m :: 0 <= m < |Lower(c)| ==> Lower(c)[m] != '\n'
    ensures Lower(c) == [] || (!IsSpace(Lower(c)[0]) && !IsSpace(Lower(c)[|Lower(c)| - 1]))
  {
    var r := Lower(c);
    forall m | 0 <= m < |r|
      ensures r[m] != '\n'
    {
      assert r[m] == LowerChar(c[m]);
    }
  }

  /** `clean_text` removes every line break before the split, so a page
      yields no paragraph when its cleaned text is empty and otherwise exactly
      one: the whole cleaned text. */
  lemma PageIsOneParagraph(s: string)
    ensures SplitIntoParagraphs(CleanLower(s)) == if CleanLower(s) == [] then [] else [CleanLower(s)]
  {
    CleanLowerShape(s);
    OneParagraph(CleanLower(s));
  }

  /** Text without a line break and without whitespace at its ends is a
      single paragraph, or none when it is empty. */
  lemma OneParagraph(t: string)
    requires forall m :: 0 <= m < |t| ==> t[m] != '\n'
    requires t == [] || (!IsSpace(t[0]) && !IsSpace(t[|t| - 1]))
    ensures SplitIntoParagraphs(t) == if t == [] then [] else [t]
  {
    RegexSplitWithoutNewline(t);
    StripIdentity(t);
    StripSingle(t);
  }

  lemma StripSingle(t: string)
    ensures StripPieces([t]) == if Strip(t) == [] then [] else [Strip(t)]
  {
    assert [t][1..] == [];
  }

  /** The single paragraph of a page is empty exactly when the page has no word. */
  lemma CleanLowerEmpty(s: string)
    ensures CleanLower(s) == [] <==> Words(s) == []
  {
    CleanNonEmpty(s);
  }
}

=== FILE: ranking.dfy ===
/** `analyze_documents` and `generate_output` of persona_analyzer.py: every
    paragraph of every page of every PDF is scored against the persona and
    job terms, the positive ones are sorted by descending score, ranked
    1, 2, ... and cut to the first twenty. */
module Ranking {
  import opened Wrappers
  import opened TextNorm
  import opened Keywords
  import opened Scoring
  import opened Paragraphs
  import opened ScoreSort
  import opened Seqs

  /** A file of the input directory: its name and the text of each page. */
  datatype FileEntry = FileEntry(name: string, pages: seq<string>)

  /** A paragraph together with the file and the 0-based page it came from. */
  datatype Unit = Unit(document: string, page: nat, paragraph: string)

  /** One entry of the returned list: the score field is gone, the rank is in. */
  datatype Ranked = Ranked(document: string, page: nat, sectionTitle: string, rank: nat)

  /** The `persona_data` record: each field may be missing. */
  datatype PersonaData = PersonaData(role: Option<string>, expertise: Option<string>, focusAreas: Option<seq<string>>)

  datatype Metadata = Metadata(documents: seq<string>, persona: PersonaData, jobToBeDone: string, timestamp: string)

  /** What `generate_output` writes as JSON. */
  datatype Output = Output(metadata: Metadata, extractedSections: seq<Ranked>)

  /** How many ranked sections are kept. */
  const MaxSections: nat := 20

  /** How many characters of a paragraph make its section title. */
  const TitleLength: nat := 80

  predicate EndsWith(s: string, suffix: string) {
    |suffix| <= |s| && s[|s| - |suffix|..] == suffix
  }

  predicate IsPdf(name: string) {
    EndsWith(name, ".pdf")
  }

  // ---------------------------------------------------------------------
  // Candidates
  // ---------------------------------------------------------------------

  /** The section title: long paragraphs are cut to 80 characters and marked
      with "...". */
  function SectionTitle(p: string): (r: string)
    ensures |p| <= TitleLength ==> r == p
    ensures |p| > TitleLength ==> |r| == TitleLength + 3 && EndsWith(r, "...")
    ensures var n := if |p| > TitleLength then TitleLength else |p|; n <= |r| && r[..n] == p[..n]
  {
    if |p| > TitleLength then p[..TitleLength] + "..." else p
  }

  /** The paragraphs of each page, after `clean_text`. */
  function PageParagraphs(pages: seq<string>): (r: seq<seq<string>>)
    ensures |r| == |pages|
  {
    seq(|pages|, p requires 0 <= p < |pages| => SplitIntoParagraphs(CleanLower(pages[p])))
  }

  /** The units of one page, given its paragraphs. */
  function PageUnits(name: string, page: nat, paragraphs: seq<string>): (r: seq<Unit>)
    ensures |r| == |paragraphs|
    ensures forall k :: 0 <= k < |paragraphs| ==> r[k] == Unit(name, page, paragraphs[k])
  {
    seq(|paragraphs|, k requires 0 <= k < |paragraphs| => Unit(name, page, paragraphs[k]))
  }

  /** The units of the pages of one file, given each page's paragraphs,
      numbering pages from `first`. */
  function DocUnits(name: string, paras: seq<seq<string>>, first: nat): seq<Unit>
  {
    if paras == [] then []
    else PageUnits(name, first, paras[0]) + DocUnits(name, paras[1..], first + 1)
  }

  /** The units of one file: none unless it is a PDF. */
  function FileUnits(e: FileEntry): seq<Unit>
  {
    if IsPdf(e.name) then DocUnits(e.name, PageParagraphs(e.pages), 0) else []
  }

  /** The units of every PDF file, in listing order. */
  function Units(entries: seq<FileEntry>): seq<Unit>
  {
    Concat(FileUnits, entries)
  }

  function CandidateOf(u: Unit, persona: seq<string>, job: seq<string>): Candidate {
    Candidate(u.document, u.page, SectionTitle(u.paragraph), Score(u.paragraph, persona, job))
  }

  /** The paragraphs that score above zero, in discovery order. */
  function Candidates(units: seq<Unit>, persona: seq<string>, job: seq<string>): (r: seq<Candidate>)
    ensures |r| <= |units|
  {
    if units == [] then []
    else
      var c := CandidateOf(units[0], persona, job);
      (if c.score > 0 then [c] else []) + Candidates(units[1..], persona, job)
  }

  // ---------------------------------------------------------------------
  // Sort, rank, cut
  // ---------------------------------------------------------------------

  function RankOne(c: Candidate, rank: nat): Ranked {
    Ranked(c.document, c.page, c.sectionTitle, rank)
  }

  /** Ranks 1, 2, ... down the sorted list. */
  function RankAll(s: seq<Candidate>): (r: seq<Ranked>)
    ensures |r| == |s|
  {
    seq(|s|, i requires 0 <= i < |s| => RankOne(s[i], i + 1))
  }

  /** `results[:20]`. */
  function Top(r: seq<Ranked>): seq<Ranked> {
    if |r| > MaxSections then r[..MaxSections] else r
  }

  /** `analyze_documents`, the term sets walked in the orders `persona` and `job`. */
  function AnalyzeDocuments(entries: seq<FileEntry>, persona: seq<string>, job: seq<string>): (r: seq<Ranked>)
  {
    Top(RankAll(SortByScore(Candidates(Units(entries), persona, job))))
  }

  // ---------------------------------------------------------------------
  // Keywords of generate_output
  // ---------------------------------------------------------------------

  /** The words of every text after `clean_text`, as one set. */
  function WordSet(texts: seq<string>): set<string>
  {
    set t, w | t in texts && w in Words(CleanLower(t)) :: w
  }

  /** The texts the persona keywords come from: the role, the expertise and
      every focus area, a missing field counting as empty. */
  function PersonaTexts(pd: PersonaData): seq<string> {
    [pd.role.GetOr(""), pd.expertise.GetOr("")] + pd.focusAreas.GetOr([])
  }

  function PersonaKeywords(pd: PersonaData): set<string> {
    WordSet(PersonaTexts(pd))
  }

  function PersonaTerms(pd: PersonaData): set<string> {
    ExpandKeywords(PersonaKeywords(pd))
  }

  function JobTerms(job: string): set<string> {
    ExpandKeywords(WordSet([job]))
  }

  /** The names of the PDF files, in listing order. */
  function PdfNames(entries: seq<FileEntry>): (r: seq<string>)
    ensures forall n :: n in r <==> IsPdf(n) && exists k :: 0 <= k < |entries| && entries[k].name == n
  {
    if entries == [] then []
    else
      assert forall k :: 0 < k < |entries| ==> entries[1..][k - 1] == entries[k];
      (if IsPdf(entries[0].name) then [entries[0].name] else []) + PdfNames(entries[1..])
  }

  /** Lists a set in some order, each element once: Python's iteration over
      a `set`, whose order is not specified. */
  method Enumerate(s: set<string>) returns (q: seq<string>)
    ensures Enumerates(q, s)
  {
    q := [];
    var rest := s;
    while rest != {}
      invariant forall w :: w in q ==> w in s && w !in rest
      invariant forall w :: w in s ==> w in q || w in rest
      invariant forall i, j :: 0 <= i < j < |q| ==> q[i] != q[j]
      decreases rest
    {
      var w :| w in rest;
      q := q + [w];
      rest := rest - {w};
    }
  }

  /** `generate_output` without the file write: the clock reading is passed in. */
  method GenerateOutput(entries: seq<FileEntry>, persona: PersonaData, job: string, timestamp: string)
    returns (out: Output)
    ensures out.metadata == Metadata(PdfNames(entries), persona, job, timestamp)
    ensures forall p, j :: Enumerates(p, PersonaTerms(persona)) && Enumerates(j, JobTerms(job)) ==>
      out.extractedSections == AnalyzeDocuments(entries, p, j)
  {
    var p := Enumerate(PersonaTerms(persona));
    var j := Enumerate(JobTerms(job));
    out := Output(Metadata(PdfNames(entries), persona, job, timestamp), AnalyzeDocuments(entries, p, j));
    forall p', j' | Enumerates(p', PersonaTerms(persona)) && Enumerates(j', JobTerms(job))
      ensures AnalyzeDocuments(entries, p', j') == AnalyzeDocuments(entries, p, j)
    {
      AnalyzeOrderIndependent(entries, PersonaTerms(persona), JobTerms(job), p, p', j, j');
    }
  }

  // ---------------------------------------------------------------------
  // Properties
  // ---------------------------------------------------------------------

  /** A page contributes no unit when its cleaned text is empty and otherwise
      one unit holding the whole cleaned text. */
  lemma PageIsOneUnit(name: string, page: nat, text: string)
    ensures PageUnits(name, page, SplitIntoParagraphs(CleanLower(text))) ==
      if CleanLower(text) == [] then [] else [Unit(name, page, CleanLower(text))]
  {
    PageIsOneParagraph(text);
  }

  /** Every page has no paragraph when its cleaned text is empty and
      otherwise exactly one, its whole cleaned text. */
  lemma PageParagraphsOne(pages: seq<string>)
    ensures forall p :: 0 <= p < |pages| ==>
      PageParagraphs(pages)[p] == if CleanLower(pages[p]) == [] then [] else [CleanLower(pages[p])]
  {
    forall p | 0 <= p < |pages|
      ensures PageParagraphs(pages)[p] == if CleanLower(pages[p]) == [] then [] else [CleanLower(pages[p])]
    {
      PageIsOneParagraph(pages[p]);
    }
  }

  /** The units of consecutive pages follow one another, the later pages
      numbered on from where the earlier ones stop. */
  lemma {:induction false} DocUnitsAppend(name: string, a: seq<seq<string>>, b: seq<seq<string>>, first: nat)
    ensures DocUnits(name, a + b, first) == DocUnits(name, a, first) + DocUnits(name, b, first + |a|)
  {
    if a == [] {
      assert a + b == b;
    } else {
      assert (a + b)[0] == a[0] && (a + b)[1..] == a[1..] + b;
      DocUnitsAppend(name, a[1..], b, first + 1);
      AppendAssoc(PageUnits(name, first, a[0]), DocUnits(name, a[1..], first + 1), DocUnits(name, b, first + |a|));
    }
  }

  /** The units of a file listing are those of its files, in listing order. */
  lemma {:induction false} UnitsAppend(a: seq<FileEntry>, b: seq<FileEntry>)
    ensures Units(a + b) == Units(a) + Units(b)
  {
    ConcatAppend(FileUnits, a, b);
  }

  /** A unit of a file is a paragraph of one of its pages, with the page's
      index counted from `first`. */
  lemma {:induction false} DocUnitsMembers(name: string, paras: seq<seq<string>>, first: nat)
    ensures forall u: Unit :: u in DocUnits(name, paras, first) <==>
      exists p :: 0 <= p < |paras| && u.document == name && u.page == first + p && u.paragraph in paras[p]
  {
    if paras != [] {
      DocUnitsMembers(name, paras[1..], first + 1);
      assert forall p :: 1 <= p < |paras| ==> paras[p] == paras[1..][p - 1];
      forall u: Unit | exists p :: 0 <= p < |paras| && u.document == name && u.page == first + p && u.paragraph in paras[p]
        ensures u in DocUnits(name, paras, first)
      {
        var p :| 0 <= p < |paras| && u.document == name && u.page == first + p && u.paragraph in paras[p];
        if p == 0 {
          var i :| 0 <= i < |paras[0]| && paras[0][i] == u.paragraph;
          assert PageUnits(name, first, paras[0])[i] == u;
        } else {
          assert u.page == (first + 1) + (p - 1);
        }
      }
    }
  }

  /** The units of one file are the paragraphs of its pages when it is a
      PDF file, and there are none otherwise. */
  lemma FileUnitsMembers(e: FileEntry)
    ensures forall u: Unit :: u in FileUnits(e) <==>
      IsPdf(e.name) && (exists p :: 0 <= p < |e.pages|
                          && u.document == e.name && u.page == p && u.paragraph in PageParagraphs(e.pages)[p])
  {
    DocUnitsMembers(e.name, PageParagraphs(e.pages), 0);
  }

  /** The units are the paragraphs of the pages of the PDF files, each with
      its file name and 0-based page index. */
  lemma {:induction false} UnitsMembers(entries: seq<FileEntry>)
    ensures forall u: Unit :: u in Units(entries) <==>
      exists k, p :: 0 <= k < |entries| && IsPdf(entries[k].name) && 0 <= p < |entries[k].pages|
        && u.document == entries[k].name && u.page == p && u.paragraph in PageParagraphs(entries[k].pages)[p]
  {
    if entries != [] {
      var e, tail := entries[0], entries[1..];
      FileUnitsMembers(e);
      UnitsMembers(tail);
      assert Units(entries) == FileUnits(e) + Units(tail);
      forall u: Unit | u in Units(entries)
        ensures exists k, p :: 0 <= k < |entries| && IsPdf(entries[k].name) && 0 <= p < |entries[k].pages|
                  && u.document == entries[k].name && u.page == p && u.paragraph in PageParagraphs(entries[k].pages)[p]
      {
        if u in FileUnits(e) {
          var p :| 0 <= p < |e.pages| && u.document == e.name && u.page == p && u.paragraph in PageParagraphs(e.pages)[p];
          assert entries[0] == e;
        } else {
          var k, p :| 0 <= k < |tail| && IsPdf(tail[k].name) && 0 <= p < |tail[k].pages|
            && u.document == tail[k].name && u.page == p && u.paragraph in PageParagraphs(tail[k].pages)[p];
          assert entries[k + 1] == tail[k];
        }
      }
      forall u: Unit, k, p | 0 <= k < |entries| && IsPdf(entries[k].name) && 0 <= p < |entries[k].pages|
          && u.document == entries[k].name && u.page == p && u.paragraph in PageParagraphs(entries[k].pages)[p]
        ensures u in Units(entries)
      {
        if k == 0 {
          assert u in FileUnits(e);
        } else {
          assert entries[k] == tail[k - 1];
          assert u in Units(tail);
        }
      }
    }
  }

  /** The units are the whole cleaned texts of the non-empty pages of the
      PDF files, each with its file name and 0-based page index. */
  lemma UnitsArePages(entries: seq<FileEntry>)
    ensures forall u: Unit :: u in Units(entries) <==>
      exists k, p :: 0 <= k < |entries| && IsPdf(entries[k].name) && 0 <= p < |entries[k].pages|
        && CleanLower(entries[k].pages[p]) != [] && u == Unit(entries[k].name, p, CleanLower(entries[k].pages[p]))
  {
    UnitsMembers(entries);
    forall u: Unit | u in Units(entries)
      ensures exists k, p ::
        0 <= k < |entries| && IsPdf(entries[k].name) && 0 <= p < |entries[k].pages|
        && CleanLower(entries[k].pages[p]) != [] && u == Unit(entries[k].name, p, CleanLower(entries[k].pages[p]))
    {
      var k, p :| 0 <= k < |entries| && IsPdf(entries[k].name) && 0 <= p < |entries[k].pages|
        && u.document == entries[k].name && u.page == p && u.paragraph in PageParagraphs(entries[k].pages)[p];
      PageMember(entries[k].pages, p, u.paragraph);
      assert u == Unit(entries[k].name, p, u.paragraph);
    }
    forall u: Unit, k, p | 0 <= k < |entries| && IsPdf(entries[k].name) && 0 <= p < |entries[k].pages|
        && CleanLower(entries[k].pages[p]) != [] && u == Unit(entries[k].name, p, CleanLower(entries[k].pages[p]))
      ensures u in Units(entries)
    {
      PageMember(entries[k].pages, p, u.paragraph);
    }
  }

  /** A paragraph of a page is its whole cleaned text, when that is not empty. */
  lemma PageMember(pages: seq<string>, p: nat, x: string)
    requires p < |pages|
    ensures x in PageParagraphs(pages)[p] <==> CleanLower(pages[p]) != [] && x == CleanLower(pages[p])
  {
    PageParagraphsOne(pages);
  }

  /** Only paragraphs that score above zero become candidates, each with its
      own file, page, title and score, in discovery order. */
  lemma {:induction false} CandidatesSpec(units: seq<Unit>, persona: seq<string>, job: seq<string>)
    ensures forall k :: 0 <= k < |Candidates(units, persona, job)| ==> Candidates(units, persona, job)[k].score > 0
    ensures forall c :: c in Candidates(units, persona, job) <==>
      exists u :: u in units && c == CandidateOf(u, persona, job) && c.score > 0
  {
    if units != [] {
      CandidatesSpec(units[1..], persona, job);
      assert units == [units[0]] + units[1..];
    }
  }

  /** A candidate that scores above zero. */
  predicate Positive(c: Candidate) {
    c.score > 0
  }

  /** The scorer for one persona and job. */
  function Scorer(persona: seq<string>, job: seq<string>): Unit -> Candidate {
    u => CandidateOf(u, persona, job)
  }

  /** Every paragraph scored, in discovery order. */
  function Scored(units: seq<Unit>, persona: seq<string>, job: seq<string>): seq<Candidate> {
    Map(Scorer(persona, job), units)
  }

  /** Candidate `k` of the scored list is built from unit `k`. */
  lemma ScoredAt(units: seq<Unit>, persona: seq<string>, job: seq<string>)
    ensures |Scored(units, persona, job)| == |units|
    ensures forall k :: 0 <= k < |units| ==> Scored(units, persona, job)[k] == CandidateOf(units[k], persona, job)
  {
    MapAt(Scorer(persona, job), units);
  }

  /** The candidates are the scored paragraphs that score above zero. */
  lemma {:induction false} CandidatesIsFilter(units: seq<Unit>, persona: seq<string>, job: seq<string>)
    ensures Candidates(units, persona, job) == Filter(Positive, Scored(units, persona, job))
  {
    if units != [] {
      CandidatesIsFilter(units[1..], persona, job);
      var S := Scored(units, persona, job);
      assert S == [CandidateOf(units[0], persona, job)] + Scored(units[1..], persona, job);
      assert S[1..] == Scored(units[1..], persona, job);
    }
  }

  /** The discovery-order positions of the units that score above zero. */
  function CandidatePositions(units: seq<Unit>, persona: seq<string>, job: seq<string>): seq<nat>
  {
    KeptPositions(Positive, Scored(units, persona, job))
  }

  /** Candidate `i` is built from the unit at position `i` of the list. */
  lemma CandidatesAt(units: seq<Unit>, persona: seq<string>, job: seq<string>)
    ensures var I := CandidatePositions(units, persona, job);
      && |I| == |Candidates(units, persona, job)|
      && forall i :: 0 <= i < |I| ==>
        I[i] < |units| && Candidates(units, persona, job)[i] == CandidateOf(units[I[i]], persona, job)
  {
    CandidatesIsFilter(units, persona, job);
    ScoredAt(units, persona, job);
    FilterAt(Positive, Scored(units, persona, job));
  }

  /** The positions strictly increase. */
  lemma PositionsIncrease(units: seq<Unit>, persona: seq<string>, job: seq<string>)
    ensures forall i, j :: 0 <= i < j < |CandidatePositions(units, persona, job)| ==>
      CandidatePositions(units, persona, job)[i] < CandidatePositions(units, persona, job)[j]
  {
    KeptPositionsOrdered(Positive, Scored(units, persona, job));
  }

  /** A position is listed exactly when its unit scores above zero. */
  lemma PositionsComplete(units: seq<Unit>, persona: seq<string>, job: seq<string>)
    ensures forall k :: 0 <= k < |units| ==>
      (k in CandidatePositions(units, persona, job) <==> CandidateOf(units[k], persona, job).score > 0)
  {
    ScoredAt(units, persona, job);
    KeptPositionsOrdered(Positive, Scored(units, persona, job));
  }

  /** The candidates keep discovery order: candidate `i` is built from the
      unit at position `I[i]`, the positions strictly increase, and a
      position is listed exactly when its unit scores above zero. */
  lemma CandidatesOrder(units: seq<Unit>, persona: seq<string>, job: seq<string>)
    ensures var I := CandidatePositions(units, persona, job);
      && |I| == |Candidates(units, persona, job)|
      && (forall i :: 0 <= i < |I| ==>
            I[i] < |units| && Candidates(units, persona, job)[i] == CandidateOf(units[I[i]], persona, job))
      && (forall i, j :: 0 <= i < j < |I| ==> I[i] < I[j])
      && (forall k :: 0 <= k < |units| ==> (k in I <==> CandidateOf(units[k], persona, job).score > 0))
  {
    CandidatesAt(units, persona, job);
    PositionsIncrease(units, persona, job);
    PositionsComplete(units, persona, job);
  }

  /** Candidates depend on the scores only. */
  lemma {:induction false} CandidatesOrderIndependent(units: seq<Unit>, P: set<string>, J: set<string>,
                                                      p1: seq<string>, p2: seq<string>, j1: seq<string>, j2: seq<string>)
    requires Enumerates(p1, P) && Enumerates(p2, P)
    requires Enumerates(j1, J) && Enumerates(j2, J)
    ensures Candidates(units, p1, j1) == Candidates(units, p2, j2)
  {
    if units != [] {
      ScoreOrderIndependent(units[0].paragraph, P, J, p1, p2, j1, j2);
      CandidatesOrderIndependent(units[1..], P, J, p1, p2, j1, j2);
    }
  }

  /** The ranked sections do not depend on the order in which the persona
      and job term sets are walked. */
  lemma AnalyzeOrderIndependent(entries: seq<FileEntry>, P: set<string>, J: set<string>,
                                p1: seq<string>, p2: seq<string>, j1: seq<string>, j2: seq<string>)
    requires Enumerates(p1, P) && Enumerates(p2, P)
    requires Enumerates(j1, J) && Enumerates(j2, J)
    ensures AnalyzeDocuments(entries, p1, j1) == AnalyzeDocuments(entries, p2, j2)
  {
    CandidatesOrderIndependent(Units(entries), P, J, p1, p2, j1, j2);
  }

  /** Ranking and the cut: at most twenty sections, ranked 1..k without
      gaps, each the entry at that place of the sorted list. */
  lemma TopRanked(S: seq<Candidate>)
    ensures |Top(RankAll(S))| == (if |S| < MaxSections then |S| else MaxSections)
    ensures forall i :: 0 <= i < |Top(RankAll(S))| ==> Top(RankAll(S))[i].rank == i + 1
    ensures forall i :: 0 <= i < |Top(RankAll(S))| ==> Top(RankAll(S))[i] == RankOne(S[i], i + 1)
  {
  }

  /** The ranked output: at most twenty sections, ranked 1..k without gaps,
      each the candidate at that place of the stable descending sort, no
      dropped candidate scoring above a kept one. */
  lemma AnalyzeSpec(entries: seq<FileEntry>, persona: seq<string>, job: seq<string>)
    ensures var C := Candidates(Units(entries), persona, job);
            var S := SortByScore(C);
            var r := AnalyzeDocuments(entries, persona, job);
            && |r| == (if |C| < MaxSections then |C| else MaxSections)
            && (forall i :: 0 <= i < |r| ==> r[i].rank == i + 1)
            && (forall i :: 0 <= i < |r| ==> r[i] == RankOne(S[i], i + 1))
            && (forall i, j :: 0 <= i < |r| <= j < |S| ==> S[i].score >= S[j].score)
            && multiset(S) == multiset(C)
            && (forall v: nat :: WithScore(S, v) == WithScore(C, v))
  {
    RankCandidates(Candidates(Units(entries), persona, job));
  }

  /** The ranking step of `AnalyzeSpec`, for any list of candidates. */
  lemma RankCandidates(C: seq<Candidate>)
    ensures var S := SortByScore(C);
            var r := Top(RankAll(S));
            && |r| == (if |C| < MaxSections then |C| else MaxSections)
            && (forall i :: 0 <= i < |r| ==> r[i].rank == i + 1)
            && (forall i :: 0 <= i < |r| ==> r[i] == RankOne(S[i], i + 1))
            && (forall i, j :: 0 <= i < |r| <= j < |S| ==> S[i].score >= S[j].score)
            && multiset(S) == multiset(C)
            && (forall v: nat :: WithScore(S, v) == WithScore(C, v))
  {
    TopRanked(SortByScore(C));
    SortIsPermutation(C);
    SortIsStableAll(C);
  }

  /** Every term an expansion adds is non-empty when the keywords are. */
  lemma TermsNonEmpty(keywords: set<string>)
    requires forall w :: w in keywords ==> w != []
    ensures forall w :: w in ExpandKeywords(keywords) ==> w != []
  {
    forall w | w in ExpandKeywords(keywords)
      ensures w != []
    {
      if w !in keywords {
        var g: Group :| g in Synonyms && w in Members(g);
        MemberNonEmpty(g, w);
      }
    }
  }

  lemma WordSetNonEmpty(texts: seq<string>)
    ensures forall w :: w in WordSet(texts) ==> w != []
  {
    forall w | w in WordSet(texts)
      ensures w != []
    {
      var t :| t in texts && w in Words(CleanLower(t));
      assert AllWords(Words(CleanLower(t)));
    }
  }

  /** The persona and job terms are non-empty, and each is a word of the
      persona texts or of the job, or a term of the synonym table; every
      such word is a term. */
  lemma TermSetsNonEmpty(pd: PersonaData, job: string)
    ensures forall w :: w in PersonaTerms(pd) ==> w != []
    ensures forall w :: w in JobTerms(job) ==> w != []
    ensures PersonaKeywords(pd) <= PersonaTerms(pd) && WordSet([job]) <= JobTerms(job)
    ensures forall w :: w in PersonaTerms(pd) ==>
      w in WordSet(PersonaTexts(pd)) || exists g :: g in Synonyms && w in Members(g)
    ensures forall w :: w in JobTerms(job) ==>
      w in WordSet([job]) || exists g :: g in Synonyms && w in Members(g)
  {
    WordSetNonEmpty(PersonaTexts(pd));
    TermsNonEmpty(PersonaKeywords(pd));
    WordSetNonEmpty([job]);
    TermsNonEmpty(WordSet([job]));
  }

  /** Over an enumeration of a set, "some listed term occurs" is "some
      member occurs". */
  lemma EnumeratedOccurs(text: string, q: seq<string>, s: set<string>)
    requires Enumerates(q, s)
    ensures (exists k :: 0 <= k < |q| && Occurs(text, q[k])) <==> exists t :: t in s && Occurs(text, t)
  {
    if exists t :: t in s && Occurs(text, t) {
      var t :| t in s && Occurs(text, t);
      var k :| 0 <= k < |q| && q[k] == t;
    }
  }

  /** A paragraph becomes a candidate exactly when one of the persona or job
      terms occurs in it. */
  lemma KeptIffTermOccurs(text: string, pd: PersonaData, job: string, p: seq<string>, j: seq<string>)
    requires Enumerates(p, PersonaTerms(pd)) && Enumerates(j, JobTerms(job))
    ensures Score(text, p, j) > 0 <==>
      exists t :: (t in PersonaTerms(pd) || t in JobTerms(job)) && Occurs(text, t)
  {
    TermSetsNonEmpty(pd, job);
    assert forall k :: 0 <= k < |p| ==> p[k] in PersonaTerms(pd);
    assert forall k :: 0 <= k < |j| ==> j[k] in JobTerms(job);
    ScorePositive(text, p, j);
    EnumeratedOccurs(text, p, PersonaTerms(pd));
    EnumeratedOccurs(text, j, JobTerms(job));
  }

  /** With no PDF among the files there is nothing to rank. */
  lemma NoPdfNoSections(entries: seq<FileEntry>, persona: seq<string>, job: seq<string>)
    requires forall k :: 0 <= k < |entries| ==> !IsPdf(entries[k].name)
    ensures AnalyzeDocuments(entries, persona, job) == []
  {
    NoPdfNoUnits(entries);
  }

  lemma {:induction false} NoPdfNoUnits(entries: seq<FileEntry>)
    requires forall k :: 0 <= k < |entries| ==> !IsPdf(entries[k].name)
    ensures Units(entries) == []
  {
    if entries != [] {
      NoPdfNoUnits(entries[1..]);
    }
  }
}

=== FILE: scoring.dfy ===
/** `calculate_relevance_score` of persona_analyzer.py: the number of
    non-overlapping occurrences of every persona term, plus three times that
    of every job term. The term sets are walked in some order; the score does
    not depend on it. */
module Scoring {

  /** `term` occurs in `text` starting at index `i`. */
  predicate OccursAt(text: string, term: string, i: nat) {
    i + |term| <= |text| && text[i..i + |term|] == term
  }

  /** `term` occurs somewhere in `text`. */
  predicate Occurs(text: string, term: string) {
    exists i: nat :: i <= |text| && OccursAt(text, term, i)
  }

  /** Non-overlapping occurrences from index `i` on, found left to right:
      after a match the search resumes just past it. */
  function CountFrom(text: string, term: string, i: nat): nat
    requires term != []
    decreases |text| - i
  {
    if i + |term| > |text| then 0
    else if OccursAt(text, term, i) then 1 + CountFrom(text, term, i + |term|)
    else CountFrom(text, term, i + 1)
  }

  /** `str.count`: non-overlapping occurrences; the empty string is counted
      once before each character and once at the end. */
  function Count(text: string, term: string): nat
  {
    if term == [] then |text| + 1 else CountFrom(text, term, 0)
  }

  /** A search from `j` finds something exactly when an occurrence starts at
      `j` or later. */
  lemma {:induction false} CountFromPositive(text: string, term: string, j: nat)
    requires term != []
    ensures CountFrom(text, term, j) > 0 <==> exists i: nat :: j <= i && OccursAt(text, term, i)
    decreases |text| - j
  {
    if j + |term| > |text| {
      forall i: nat | j <= i
        ensures !OccursAt(text, term, i)
      {
      }
    } else if OccursAt(text, term, j) {
    } else {
      CountFromPositive(text, term, j + 1);
      forall i: nat | j <= i && OccursAt(text, term, i)
        ensures j + 1 <= i
      {
      }
    }
  }

  /** The matches counted from `j` fit, side by side, in what is left of the text. */
  lemma {:induction false} CountFromBound(text: string, term: string, j: nat)
    requires term != [] && j <= |text|
    ensures CountFrom(text, term, j) * |term| <= |text| - j
    decreases |text| - j
  {
    if j + |term| <= |text| {
      if OccursAt(text, term, j) {
        CountFromBound(text, term, j + |term|);
      } else {
        CountFromBound(text, term, j + 1);
      }
    }
  }

  /** A non-empty term is counted at least once exactly when it occurs, and
      its non-overlapping occurrences fit in the text. */
  lemma CountSpec(text: string, term: string)
    requires term != []
    ensures Count(text, term) > 0 <==> Occurs(text, term)
    ensures Count(text, term) * |term| <= |text|
  {
    CountFromPositive(text, term, 0);
    CountFromBound(text, term, 0);
  }

  /** `ps` lists occurrences of `term` in `text`, left to right, each
      starting after the one before has ended. */
  ghost predicate NonOverlapping(text: string, term: string, ps: seq<nat>) {
    && (forall k :: 0 <= k < |ps| ==> OccursAt(text, term, ps[k]))
    && (forall a, b :: 0 <= a < b < |ps| ==> ps[a] < ps[b] && ps[a] + |term| <= ps[b])
  }

  /** The positions the left-to-right search from `i` counts. */
  function MatchesFrom(text: string, term: string, i: nat): seq<nat>
    requires term != []
    decreases |text| - i
  {
    if i + |term| > |text| then []
    else if OccursAt(text, term, i) then [i] + MatchesFrom(text, term, i + |term|)
    else MatchesFrom(text, term, i + 1)
  }

  /** The search from `i` counts one non-overlapping occurrence per
      position it stops at, all of them at `i` or later. */
  lemma {:induction false} MatchesFromSpec(text: string, term: string, i: nat)
    requires term != []
    ensures var ps := MatchesFrom(text, term, i);
      && |ps| == CountFrom(text, term, i)
      && NonOverlapping(text, term, ps)
      && forall k :: 0 <= k < |ps| ==> i <= ps[k]
    decreases |text| - i
  {
    if i + |term| <= |text| {
      if OccursAt(text, term, i) {
        MatchesFromSpec(text, term, i + |term|);
        ConsNonOverlapping(text, term, i, MatchesFrom(text, term, i + |term|));
      } else {
        MatchesFromSpec(text, term, i + 1);
      }
    }
  }

  /** An occurrence ending before every entry of a non-overlapping list
      can be put in front of it. */
  lemma ConsNonOverlapping(text: string, term: string, i: nat, ps: seq<nat>)
    requires term != [] && OccursAt(text, term, i) && NonOverlapping(text, term, ps)
    requires forall k :: 0 <= k < |ps| ==> i + |term| <= ps[k]
    ensures NonOverlapping(text, term, [i] + ps)
    ensures forall k :: 0 <= k < |[i] + ps| ==> i <= ([i] + ps)[k]
  {
    assert forall k :: 1 <= k < |[i] + ps| ==> ([i] + ps)[k] == ps[k - 1];
  }

  /** No list of non-overlapping occurrences at `j` or later is longer
      than what the search from `j` counts. */
  lemma {:induction false} CountFromMaximal(text: string, term: string, j: nat, ps: seq<nat>)
    requires term != [] && NonOverlapping(text, term, ps)
    requires forall k :: 0 <= k < |ps| ==> j <= ps[k]
    ensures |ps| <= CountFrom(text, term, j)
    decreases |text| - j
  {
    if ps != [] {
      assert OccursAt(text, term, ps[0]);
      if OccursAt(text, term, j) {
        var tail := ps[1..];
        assert forall k :: 0 <= k < |tail| ==> tail[k] == ps[k + 1];
        assert forall k :: 0 <= k < |tail| ==> j + |term| <= tail[k] by {
          forall k | 0 <= k < |tail|
            ensures j + |term| <= tail[k]
          {
            assert ps[0] + |term| <= ps[k + 1];
          }
        }
        CountFromMaximal(text, term, j + |term|, tail);
      } else {
        assert forall k :: 0 <= k < |ps| ==> j + 1 <= ps[k] by {
          forall k | 0 <= k < |ps|
            ensures j + 1 <= ps[k]
          {
            if k > 0 {
              assert ps[0] < ps[k];
            }
          }
        }
        CountFromMaximal(text, term, j + 1, ps);
      }
    }
  }

  /** With the empty term every position from 0 to the end is an
      occurrence, so at most `|text| - j + 1` of them lie at `j` or later. */
  lemma {:induction false} EmptyTermMaximal(text: string, j: nat, ps: seq<nat>)
    requires NonOverlapping(text, [], ps)
    requires forall k :: 0 <= k < |ps| ==> j <= ps[k]
    ensures ps == [] || |ps| + j <= |text| + 1
    decreases |ps|
  {
    if ps != [] {
      assert OccursAt(text, [], ps[0]);
      var tail := ps[1..];
      assert forall k :: 0 <= k < |tail| ==> tail[k] == ps[k + 1];
      assert forall k :: 0 <= k < |tail| ==> ps[0] + 1 <= tail[k] by {
        forall k | 0 <= k < |tail|
          ensures ps[0] + 1 <= tail[k]
        {
          assert ps[0] < ps[k + 1];
        }
      }
      EmptyTermMaximal(text, ps[0] + 1, tail);
    }
  }

  /** `text.count(term)` is the largest number of non-overlapping
      occurrences of `term` in `text`: some list of that many exists, and
      none is longer. For the empty term these are the `|text| + 1`
      positions. */
  lemma CountIsMaximum(text: string, term: string)
    ensures exists ps :: NonOverlapping(text, term, ps) && |ps| == Count(text, term)
    ensures forall ps :: NonOverlapping(text, term, ps) ==> |ps| <= Count(text, term)
  {
    if term == [] {
      var all: seq<nat> := seq(|text| + 1, i requires 0 <= i <= |text| => i);
      assert forall k :: 0 <= k < |all| ==> OccursAt(text, term, all[k]);
      assert NonOverlapping(text, term, all);
      forall ps | NonOverlapping(text, term, ps)
        ensures |ps| <= Count(text, term)
      {
        EmptyTermMaximal(text, 0, ps);
      }
    } else {
      MatchesFromSpec(text, term, 0);
      assert NonOverlapping(text, term, MatchesFrom(text, term, 0));
      forall ps | NonOverlapping(text, term, ps)
        ensures |ps| <= Count(text, term)
      {
        CountFromMaximal(text, term, 0, ps);
      }
    }
  }

  /** `text.count(term)` summed over `terms`, in the order given. */
  function SumCounts(text: string, terms: seq<string>): nat
  {
    if terms == [] then 0
    else SumCounts(text, terms[..|terms| - 1]) + Count(text, terms[|terms| - 1])
  }

  /** `calculate_relevance_score` with the term sets walked in the orders
      `persona` and `job`. */
  function Score(text: string, persona: seq<string>, job: seq<string>): nat
  {
    SumCounts(text, persona) + 3 * SumCounts(text, job)
  }

  lemma SumCountsAppend(text: string, a: seq<string>, b: seq<string>)
    ensures SumCounts(text, a + b) == SumCounts(text, a) + SumCounts(text, b)
    decreases |b|
  {
    if b == [] {
      assert a + b == a;
    } else {
      assert (a + b)[..|a + b| - 1] == a + b[..|b| - 1];
      SumCountsAppend(text, a, b[..|b| - 1]);
    }
  }

  /** The sum does not depend on the order of the terms. */
  lemma {:induction false} SumCountsPermutation(text: string, a: seq<string>, b: seq<string>)
    requires multiset(a) == multiset(b)
    ensures SumCounts(text, a) == SumCounts(text, b)
    decreases |a|
  {
    if a == [] {
      assert |b| == |multiset(b)| == 0;
    } else {
      var pre, x := a[..|a| - 1], a[|a| - 1];
      assert a == pre + [x];
      assert x in multiset(b);
      var j :| 0 <= j < |b| && b[j] == x;
      var rest := b[..j] + b[j + 1..];
      RemoveAt(b, j);
      assert multiset(a) == multiset(pre) + multiset{x};
      MultisetCancel(multiset(pre), multiset(rest), x);
      SumCountsPermutation(text, pre, rest);
      SumCountsRemove(text, b, j);
    }
  }

  lemma MultisetCancel(m: multiset<string>, n: multiset<string>, x: string)
    requires m + multiset{x} == n + multiset{x}
    ensures m == n
  {
    forall w
      ensures m[w] == n[w]
    {
      assert (m + multiset{x})[w] == (n + multiset{x})[w];
    }
  }

  lemma RemoveAt(b: seq<string>, j: nat)
    requires j < |b|
    ensures multiset(b) == multiset(b[..j] + b[j + 1..]) + multiset{b[j]}
  {
    assert b == b[..j] + [b[j]] + b[j + 1..];
  }

  lemma SumCountsRemove(text: string, b: seq<string>, j: nat)
    requires j < |b|
    ensures SumCounts(text, b) == SumCounts(text, b[..j] + b[j + 1..]) + Count(text, b[j])
  {
    var l, r := b[..j], b[j + 1..];
    assert b == (l + [b[j]]) + r;
    SumCountsAppend(text, l + [b[j]], r);
    SumCountsAppend(text, l, [b[j]]);
    SumCountsAppend(text, l, r);
    assert [b[j]][..0] == [];
  }

  /** Some term is counted exactly when the sum is positive. */
  lemma {:induction false} SumCountsPositive(text: string, terms: seq<string>)
    requires forall k :: 0 <= k < |terms| ==> terms[k] != []
    ensures SumCounts(text, terms) > 0 <==> exists k :: 0 <= k < |terms| && Occurs(text, terms[k])
  {
    if terms != [] {
      var pre := terms[..|terms| - 1];
      SumCountsPositive(text, pre);
      CountSpec(text, terms[|terms| - 1]);
      assert forall k :: 0 <= k < |pre| ==> pre[k] == terms[k];
    }
  }

  /** For non-empty terms, a text scores above zero exactly when one of the
      persona or job terms occurs in it. */
  lemma ScorePositive(text: string, persona: seq<string>, job: seq<string>)
    requires forall k :: 0 <= k < |persona| ==> persona[k] != []
    requires forall k :: 0 <= k < |job| ==> job[k] != []
    ensures Score(text, persona, job) > 0 <==>
      (exists k :: 0 <= k < |persona| && Occurs(text, persona[k]))
      || (exists k :: 0 <= k < |job| && Occurs(text, job[k]))
  {
    SumCountsPositive(text, persona);
    SumCountsPositive(text, job);
  }

  /** `q` lists the elements of the set `s`, each once. */
  predicate Enumerates(q: seq<string>, s: set<string>) {
    && (forall i, j :: 0 <= i < j < |q| ==> q[i] != q[j])
    && (forall w :: w in q ==> w in s)
    && (forall w :: w in s ==> w in q)
  }

  /** In a list without repeats, every element is counted once. */
  lemma {:induction false} DistinctMultiset(q: seq<string>)
    requires forall i, j :: 0 <= i < j < |q| ==> q[i] != q[j]
    ensures forall w :: multiset(q)[w] == if w in q then 1 else 0
  {
    if q != [] {
      var pre, x := q[..|q| - 1], q[|q| - 1];
      assert q == pre + [x];
      DistinctMultiset(pre);
      assert x !in pre by {
        forall i | 0 <= i < |pre|
          ensures pre[i] != x
        {
          assert pre[i] == q[i];
        }
      }
      forall w
        ensures multiset(q)[w] == if w in q then 1 else 0
      {
        assert w in q <==> w in pre || w == x;
      }
    }
  }

  /** The score of a text is the same for every order in which the persona
      and job term sets are walked. */
  lemma ScoreOrderIndependent(text: string, P: set<string>, J: set<string>,
                              p1: seq<string>, p2: seq<string>, j1: seq<string>, j2: seq<string>)
    requires Enumerates(p1, P) && Enumerates(p2, P)
    requires Enumerates(j1, J) && Enumerates(j2, J)
    ensures Score(text, p1, j1) == Score(text, p2, j2)
  {
    SameSetSameMultiset(p1, p2, P);
    SameSetSameMultiset(j1, j2, J);
    SumCountsPermutation(text, p1, p2);
    SumCountsPermutation(text, j1, j2);
  }

  lemma SameSetSameMultiset(a: seq<string>, b: seq<string>, s: set<string>)
    requires Enumerates(a, s) && Enumerates(b, s)
    ensures multiset(a) == multiset(b)
  {
    DistinctMultiset(a);
    DistinctMultiset(b);
    assert forall w :: multiset(a)[w] == multiset(b)[w];
  }
}

=== FILE: seqs.dfy ===
/** Sequence helpers shared by several modules: regrouping, applying a
    function to every element, concatenating what it gives, and keeping the
    elements a predicate accepts together with their positions. Each is
    proved once for every function or predicate, so that the proofs which
    use them never unfold the function they are given. */
module Seqs {

  /** Concatenation regroups. Proofs that call this lemma do not have to
      unfold the sequences they regroup, which keeps them cheap. */
  lemma AppendAssoc<T>(a: seq<T>, b: seq<T>, c: seq<T>)
    ensures a + (b + c) == (a + b) + c
  {
  }

  /** `f` applied to every element, in order. */
  function Map<A, B>(f: A -> B, s: seq<A>): (r: seq<B>)
    ensures |r| == |s|
  {
    if s == [] then [] else [f(s[0])] + Map(f, s[1..])
  }

  /** Element k of the mapped sequence is `f` of element k. Proved once for
      every `f`, so that callers never unfold the function they map. */
  lemma {:induction false} MapAt<A, B>(f: A -> B, s: seq<A>)
    ensures forall k :: 0 <= k < |s| ==> Map(f, s)[k] == f(s[k])
  {
    if s != [] {
      MapAt(f, s[1..]);
      forall k | 1 <= k < |s|
        ensures Map(f, s)[k] == f(s[k])
      {
        assert Map(f, s)[k] == Map(f, s[1..])[k - 1];
        assert s[k] == s[1..][k - 1];
      }
    }
  }

  /** The sequences `f` gives for the elements, concatenated in order. */
  function Concat<A, B>(f: A -> seq<B>, s: seq<A>): seq<B>
  {
    if s == [] then [] else f(s[0]) + Concat(f, s[1..])
  }

  /** Concatenating over two lists one after the other is concatenating
      over each and joining the results. */
  lemma {:induction false} ConcatAppend<A, B>(f: A -> seq<B>, a: seq<A>, b: seq<A>)
    ensures Concat(f, a + b) == Concat(f, a) + Concat(f, b)
  {
    if a == [] {
      assert a + b == b;
    } else {
      assert (a + b)[0] == a[0] && (a + b)[1..] == a[1..] + b;
      ConcatAppend(f, a[1..], b);
      AppendAssoc(f(a[0]), Concat(f, a[1..]), Concat(f, b));
    }
  }

  /** Every position moved one place on. */
  function Shift(s: seq<nat>): (r: seq<nat>)
    ensures |r| == |s|
    ensures forall i :: 0 <= i < |s| ==> r[i] == s[i] + 1
  {
    seq(|s|, i requires 0 <= i < |s| => s[i] + 1)
  }

  /** A position is in the shifted list exactly when the one before it is
      in the original. */
  lemma ShiftMembers(s: seq<nat>, k: nat)
    ensures k in Shift(s) <==> k > 0 && k - 1 in s
  {
    if k > 0 && k - 1 in s {
      var i :| 0 <= i < |s| && s[i] == k - 1;
      assert Shift(s)[i] == k;
    }
  }

  /** Positions that strictly increase. */
  predicate Increasing(s: seq<nat>) {
    forall i, j :: 0 <= i < j < |s| ==> s[i] < s[j]
  }

  /** Putting position 0 (or nothing) in front of an increasing list moved
      one place on keeps it increasing. */
  lemma ShiftIncreasing(head: seq<nat>, rest: seq<nat>)
    requires head == [] || head == [0]
    requires Increasing(rest)
    ensures Increasing(head + Shift(rest))
  {
    var I := head + Shift(rest);
    forall i, j | 0 <= i < j < |I|
      ensures I[i] < I[j]
    {
      if i < |head| {
        assert I[j] == Shift(rest)[j - |head|];
      } else {
        assert I[i] == Shift(rest)[i - |head|] && I[j] == Shift(rest)[j - |head|];
      }
    }
  }

  /** The elements `keep` accepts, in order. */
  function Filter<T>(keep: T -> bool, s: seq<T>): (r: seq<T>)
    ensures |r| <= |s|
  {
    if s == [] then [] else (if keep(s[0]) then [s[0]] else []) + Filter(keep, s[1..])
  }

  /** The kept elements are exactly the elements `keep` accepts. */
  lemma {:induction false} FilterMembers<T>(keep: T -> bool, s: seq<T>)
    ensures forall x :: x in Filter(keep, s) <==> x in s && keep(x)
  {
    if s != [] {
      FilterMembers(keep, s[1..]);
      assert s == [s[0]] + s[1..];
    }
  }

  /** The positions of the elements `keep` accepts, in order. */
  function KeptPositions<T>(keep: T -> bool, s: seq<T>): seq<nat>
  {
    if s == [] then [] else (if keep(s[0]) then [0] else []) + Shift(KeptPositions(keep, s[1..]))
  }

  /** Kept element `i` is the element at the `i`-th kept position. */
  lemma {:induction false} FilterAt<T>(keep: T -> bool, s: seq<T>)
    ensures |KeptPositions(keep, s)| == |Filter(keep, s)|
    ensures forall i :: 0 <= i < |KeptPositions(keep, s)| ==>
      KeptPositions(keep, s)[i] < |s| && Filter(keep, s)[i] == s[KeptPositions(keep, s)[i]]
  {
    if s != [] {
      var tail := s[1..];
      FilterAt(keep, tail);
      assert forall k :: 1 <= k < |s| ==> s[k] == tail[k - 1];
    }
  }

  /** The kept positions strictly increase, and a position is listed
      exactly when `keep` accepts its element. */
  lemma {:induction false} KeptPositionsOrdered<T>(keep: T -> bool, s: seq<T>)
    ensures Increasing(KeptPositions(keep, s))
    ensures forall k :: 0 <= k < |s| ==> (k in KeptPositions(keep, s) <==> keep(s[k]))
  {
    if s != [] {
      var tail := s[1..];
      KeptPositionsOrdered(keep, tail);
      var rest := KeptPositions(keep, tail);
      var head := if keep(s[0]) then [0] else [];
      assert KeptPositions(keep, s) == head + Shift(rest);
      ShiftIncreasing(head, rest);
      forall k | 0 <= k < |s|
        ensures k in KeptPositions(keep, s) <==> keep(s[k])
      {
        ShiftMembers(rest, k);
        if k > 0 {
          assert s[k] == tail[k - 1];
        }
      }
    }
  }
}

=== FILE: sorting.dfy ===
/** `sorted(results, key=lambda x: x["importance_score"], reverse=True)` of
    persona_analyzer.py: a stable sort by descending score, written as an
    insertion sort over the candidates in the order they were found. */
module ScoreSort {
  import opened Seqs

  /** One entry of `results` before ranking. */
  datatype Candidate = Candidate(document: string, page: nat, sectionTitle: string, score: nat)

  /** Scores never increase along `s`. */
  predicate SortedDesc(s: seq<Candidate>) {
    forall i, j :: 0 <= i < j < |s| ==> s[i].score >= s[j].score
  }

  /** The entries of `s` with score `v`, in their order in `s`. */
  function WithScore(s: seq<Candidate>, v: nat): (r: seq<Candidate>)
    ensures |r| <= |s|
  {
    if s == [] then []
    else (if s[0].score == v then [s[0]] else []) + WithScore(s[1..], v)
  }

  /** Puts `x` after every entry of `s` whose score is at least its own. */
  function InsertDesc(x: Candidate, s: seq<Candidate>): (r: seq<Candidate>)
    requires SortedDesc(s)
    ensures SortedDesc(r)
    ensures |r| == |s| + 1
    ensures r[0].score == x.score || (s != [] && r[0].score == s[0].score)
  {
    if s == [] then [x]
    else if s[0].score >= x.score then
      var t := InsertDesc(x, s[1..]);
      ConsSorted(s[0], t);
      [s[0]] + t
    else
      ConsSorted(x, s);
      [x] + s
  }

  lemma ConsSorted(y: Candidate, t: seq<Candidate>)
    requires SortedDesc(t)
    requires t == [] || y.score >= t[0].score
    ensures SortedDesc([y] + t)
  {
  }

  /** The stable descending sort: each candidate, in discovery order, is
      inserted into the already sorted earlier ones. */
  function SortByScore(xs: seq<Candidate>): (r: seq<Candidate>)
    ensures SortedDesc(r)
    ensures |r| == |xs|
  {
    if xs == [] then []
    else
      var n := |xs| - 1;
      InsertDesc(xs[n], SortByScore(xs[..n]))
  }

  /** Inserting adds `x` and loses nothing. */
  lemma {:induction false} InsertIsPermutation(x: Candidate, s: seq<Candidate>)
    requires SortedDesc(s)
    ensures multiset(InsertDesc(x, s)) == multiset(s) + multiset{x}
  {
    if s != [] && s[0].score >= x.score {
      InsertIsPermutation(x, s[1..]);
      assert s == [s[0]] + s[1..];
    }
  }

  /** The sort is a permutation of its input. */
  lemma {:induction false} SortIsPermutation(xs: seq<Candidate>)
    ensures multiset(SortByScore(xs)) == multiset(xs)
  {
    if xs != [] {
      var n := |xs| - 1;
      SortIsPermutation(xs[..n]);
      InsertIsPermutation(xs[n], SortByScore(xs[..n]));
      assert xs == xs[..n] + [xs[n]];
    }
  }

  // ---------------------------------------------------------------------
  // Stability
  // ---------------------------------------------------------------------

  lemma WithScoreCons(y: Candidate, t: seq<Candidate>, v: nat)
    ensures WithScore([y] + t, v) == (if y.score == v then [y] else []) + WithScore(t, v)
  {
    assert ([y] + t)[1..] == t;
  }

  lemma {:induction false} WithScoreAppend(a: seq<Candidate>, b: seq<Candidate>, v: nat)
    ensures WithScore(a + b, v) == WithScore(a, v) + WithScore(b, v)
  {
    if a == [] {
      assert a + b == b;
    } else {
      var h := if a[0].score == v then [a[0]] else [];
      assert a + b == [a[0]] + (a[1..] + b);
      assert a == [a[0]] + a[1..];
      WithScoreCons(a[0], a[1..] + b, v);
      WithScoreCons(a[0], a[1..], v);
      WithScoreAppend(a[1..], b, v);
      assert h + (WithScore(a[1..], v) + WithScore(b, v)) == (h + WithScore(a[1..], v)) + WithScore(b, v);
    }
  }

  /** No entry of `s` scores `v` when every score is below it. */
  lemma {:induction false} WithScoreAbove(s: seq<Candidate>, v: nat)
    requires forall k :: 0 <= k < |s| ==> s[k].score < v
    ensures WithScore(s, v) == []
  {
    if s != [] {
      WithScoreAbove(s[1..], v);
    }
  }

  /** Inserting `x` appends it to the entries of its own score and leaves
      the others alone. */
  lemma {:induction false} InsertIsStable(x: Candidate, s: seq<Candidate>, v: nat)
    requires SortedDesc(s)
    ensures WithScore(InsertDesc(x, s), v) == WithScore(s, v) + (if x.score == v then [x] else [])
  {
    if s == [] {
      WithScoreCons(x, [], v);
      assert [x] + [] == [x];
    } else if s[0].score >= x.score {
      InsertIsStable(x, s[1..], v);
      InsertBehindStable(x, s, v);
    } else {
      InsertAheadStable(x, s, v);
    }
  }

  lemma InsertBehindStable(x: Candidate, s: seq<Candidate>, v: nat)
    requires SortedDesc(s) && s != [] && s[0].score >= x.score
    requires WithScore(InsertDesc(x, s[1..]), v) == WithScore(s[1..], v) + (if x.score == v then [x] else [])
    ensures WithScore(InsertDesc(x, s), v) == WithScore(s, v) + (if x.score == v then [x] else [])
  {
    KeepFront(s[0], InsertDesc(x, s[1..]), s[1..], if x.score == v then [x] else [], v);
    assert s == [s[0]] + s[1..];
  }

  lemma InsertAheadStable(x: Candidate, s: seq<Candidate>, v: nat)
    requires SortedDesc(s) && s != [] && s[0].score < x.score
    ensures WithScore(InsertDesc(x, s), v) == WithScore(s, v) + (if x.score == v then [x] else [])
  {
    WithScoreCons(x, s, v);
    if x.score == v {
      WithScoreAbove(s, v);
    }
  }

  /** An entry kept in front keeps its place among the entries of its score. */
  lemma KeepFront(y: Candidate, t: seq<Candidate>, rest: seq<Candidate>, extra: seq<Candidate>, v: nat)
    requires WithScore(t, v) == WithScore(rest, v) + extra
    ensures WithScore([y] + t, v) == WithScore([y] + rest, v) + extra
  {
    var h := if y.score == v then [y] else [];
    WithScoreCons(y, t, v);
    WithScoreCons(y, rest, v);
    AppendAssoc(h, WithScore(rest, v), extra);
  }

  /** The sort is stable: the entries of each score keep their discovery order. */
  lemma {:induction false} SortIsStable(xs: seq<Candidate>, v: nat)
    ensures WithScore(SortByScore(xs), v) == WithScore(xs, v)
  {
    if xs != [] {
      var n := |xs| - 1;
      SortIsStable(xs[..n], v);
      InsertIsStable(xs[n], SortByScore(xs[..n]), v);
      assert xs == xs[..n] + [xs[n]];
      WithScoreAppend(xs[..n], [xs[n]], v);
      assert [xs[n]][1..] == [];
    }
  }

  lemma SortIsStableAll(xs: seq<Candidate>)
    ensures forall v: nat :: WithScore(SortByScore(xs), v) == WithScore(xs, v)
  {
    forall v: nat
      ensures WithScore(SortByScore(xs), v) == WithScore(xs, v)
    {
      SortIsStable(xs, v);
    }
  }

  /** Being sorted and keeping the order within every score pins the
      result down: two such orderings of the same entries are equal. */
  lemma {:induction false} SortedStableUnique(a: seq<Candidate>, b: seq<Candidate>)
    requires SortedDesc(a) && SortedDesc(b)
    requires forall v: nat :: WithScore(a, v) == WithScore(b, v)
    ensures a == b
    decreases |a|
  {
    assert a == [] <==> b == [] by {
      if a != [] {
        assert WithScore(a, a[0].score) != [];
      }
      if b != [] {
        assert WithScore(b, b[0].score) != [];
      }
    }
    if a != [] {
      var m := a[0].score;
      assert b[0].score == m by {
        if b[0].score < m {
          WithScoreAbove(b, m);
        } else if b[0].score > m {
          WithScoreAbove(a, b[0].score);
        }
      }
      assert a[0] == b[0] by {
        assert WithScore(a, m)[0] == a[0];
        assert WithScore(b, m)[0] == b[0];
      }
      forall v: nat
        ensures WithScore(a[1..], v) == WithScore(b[1..], v)
      {
        var h := if m == v then [a[0]] else [];
        assert WithScore(a, v) == h + WithScore(a[1..], v);
        assert WithScore(b, v) == h + WithScore(b[1..], v);
        assert WithScore(a[1..], v) == WithScore(a, v)[|h|..];
        assert WithScore(b[1..], v) == WithScore(b, v)[|h|..];
      }
      SortedStableUnique(a[1..], b[1..]);
      assert a == [a[0]] + a[1..];
      assert b == [b[0]] + b[1..];
    }
  }

  /** `SortByScore` is the only stable descending ordering of its input. */
  lemma SortCharacterized(xs: seq<Candidate>, s: seq<Candidate>)
    requires SortedDesc(s)
    requires forall v: nat :: WithScore(s, v) == WithScore(xs, v)
    ensures s == SortByScore(xs)
  {
    SortIsStableAll(xs);
    SortedStableUnique(s, SortByScore(xs));
  }
}

=== FILE: text.dfy ===
/** Whitespace handling shared by both pipelines: the whitespace part of
    `clean_text`, `str.split()`, `str.strip()` and `" ".join`, plus the ASCII
    approximations of `lower()`, `isdigit()` and `startswith`. Unicode NFKC
    normalisation is not modelled (it is the identity here). */
module TextNorm {
  import opened Seqs

  /** The characters for which Python's `str.isspace()` holds; a `\s` in a
      `str` regular expression matches exactly these. */
  predicate IsSpace(c: char) {
    var n := c as int;
    n == 0x20 || 0x09 <= n <= 0x0D || 0x1C <= n <= 0x1F || n == 0x85 || n == 0xA0
    || n == 0x1680 || 0x2000 <= n <= 0x200A || n == 0x2028 || n == 0x2029
    || n == 0x202F || n == 0x205F || n == 0x3000
  }

  predicate NoSpace(s: string) {
    forall i :: 0 <= i < |s| ==> !IsSpace(s[i])
  }

  /** A token of `str.split()`: non-empty and free of whitespace. */
  predicate IsWord(w: string) {
    w != [] && NoSpace(w)
  }

  predicate AllWords(ws: seq<string>) {
    forall k :: 0 <= k < |ws| ==> IsWord(ws[k])
  }

  /** Text in the form `clean_text` produces: words separated by single spaces,
      nothing at either end. */
  predicate IsClean(s: string) {
    s == Join(Words(s))
  }

  /** Drops the leading run of whitespace (`lstrip()`). */
  function SkipSpaces(s: string): (r: string)
    ensures |r| <= |s| && r == s[|s| - |r|..]
    ensures r == [] || !IsSpace(r[0])
    ensures forall i :: 0 <= i < |s| - |r| ==> IsSpace(s[i])
  {
    if s != [] && IsSpace(s[0]) then SkipSpaces(s[1..]) else s
  }

  /** Drops the trailing run of whitespace (`rstrip()`). */
  function TrimRight(s: string): (r: string)
    ensures |r| <= |s| && r == s[..|r|]
    ensures r == [] || !IsSpace(r[|r| - 1])
    ensures forall i :: |r| <= i < |s| ==> IsSpace(s[i])
  {
    if s != [] && IsSpace(s[|s| - 1]) then TrimRight(s[..|s| - 1]) else s
  }

  /** `str.strip()` with no argument. */
  function Strip(s: string): (r: string)
    ensures r == [] || (!IsSpace(r[0]) && !IsSpace(r[|r| - 1]))
    ensures |r| <= |s|
  {
    TrimRight(SkipSpaces(s))
  }

  /** `re.sub(r"\s+", " ", s)`: every maximal run of whitespace becomes one space. */
  function CollapseSpaces(s: string): string
    decreases |s|
  {
    if s == [] then []
    else if IsSpace(s[0]) then " " + CollapseSpaces(SkipSpaces(s))
    else [s[0]] + CollapseSpaces(s[1..])
  }

  /** The whitespace part of `clean_text` in both source files:
      collapse whitespace runs, then strip. */
  function CleanText(s: string): string
  {
    Strip(CollapseSpaces(s))
  }

  /** Length of the leading run of non-whitespace characters. */
  function WordLength(s: string): (n: nat)
    ensures n <= |s| && NoSpace(s[..n]) && (n == |s| || IsSpace(s[n]))
  {
    if s == [] || IsSpace(s[0]) then 0 else 1 + WordLength(s[1..])
  }

  /** `str.split()` with no separator: the maximal runs of non-whitespace. */
  function Words(s: string): (ws: seq<string>)
    ensures AllWords(ws)
    decreases |s|
  {
    if s == [] then []
    else if IsSpace(s[0]) then Words(s[1..])
    else
      var n := WordLength(s);
      [s[..n]] + Words(s[n..])
  }

  /** `" ".join(ws)`. */
  function Join(ws: seq<string>): string
  {
    if |ws| == 0 then ""
    else if |ws| == 1 then ws[0]
    else ws[0] + " " + Join(ws[1..])
  }

  /** ASCII approximation of `str.lower()`. */
  function LowerChar(c: char): (d: char)
    ensures IsSpace(d) == IsSpace(c)
    ensures !('A' <= d <= 'Z')
  {
    if 'A' <= c <= 'Z' then (c as int + 32) as char else c
  }

  function Lower(s: string): (r: string)
    ensures |r| == |s|
    ensures forall i :: 0 <= i < |s| ==> r[i] == LowerChar(s[i])
  {
    seq(|s|, i requires 0 <= i < |s| => LowerChar(s[i]))
  }

  predicate StartsWith(s: string, prefix: string) {
    |prefix| <= |s| && s[..|prefix|] == prefix
  }

  /** ASCII approximation of `str.isdigit()`: non-empty and all decimal digits. */
  predicate IsDigits(s: string) {
    s != [] && forall i :: 0 <= i < |s| ==> '0' <= s[i] <= '9'
  }

  // ---------------------------------------------------------------------
  // clean_text agrees with " ".join(s.split())
  // ---------------------------------------------------------------------

  lemma {:induction false} JoinEnds(ws: seq<string>)
    requires AllWords(ws) && ws != []
    ensures Join(ws) != []
    ensures !IsSpace(Join(ws)[0]) && !IsSpace(Join(ws)[|Join(ws)| - 1])
    ensures Join(ws)[..|ws[0]|] == ws[0]
  {
    if |ws| > 1 {
      JoinEnds(ws[1..]);
      assert ws[0][0] == Join(ws)[0];
    }
  }

  lemma {:induction false} CollapseWordPrefix(w: string, rest: string)
    requires NoSpace(w)
    ensures CollapseSpaces(w + rest) == w + CollapseSpaces(rest)
    decreases |w|
  {
    if w == [] {
      assert w + rest == rest;
    } else {
      var s := w + rest;
      assert s[0] == w[0];
      assert s[1..] == w[1..] + rest;
      CollapseWordPrefix(w[1..], rest);
      assert w == [w[0]] + w[1..];
    }
  }

  lemma {:induction false} WordsSkip(s: string)
    ensures Words(SkipSpaces(s)) == Words(s)
    decreases |s|
  {
    if s != [] && IsSpace(s[0]) {
      WordsSkip(s[1..]);
    }
  }

  lemma WordsOfWordStart(s: string)
    requires s != [] && !IsSpace(s[0])
    ensures Words(s) == [s[..WordLength(s)]] + Words(s[WordLength(s)..])
    ensures WordLength(s) > 0
  {
  }

  lemma CollapseOfSpaceStart(s: string)
    requires s != [] && IsSpace(s[0])
    ensures CollapseSpaces(s) == " " + CollapseSpaces(SkipSpaces(s))
  {
  }

  lemma JoinCons(w: string, ws: seq<string>)
    requires ws != []
    ensures Join([w] + ws) == w + " " + Join(ws)
  {
    assert ([w] + ws)[1..] == ws;
  }

  /** Trailing marker for `CollapseFromWord`: one space when the text ends in whitespace. */
  function TrailingSpace(s: string): string {
    if s != [] && IsSpace(s[|s| - 1]) then " " else ""
  }

  /** On text that does not start with whitespace, collapsing yields the joined
      words plus one space when the text ends in whitespace. */
  lemma {:induction false} CollapseFromWord(s: string)
    requires s == [] || !IsSpace(s[0])
    ensures CollapseSpaces(s) == Join(Words(s)) + TrailingSpace(s)
    decreases |s|, 0
  {
    if s != [] {
      var n := WordLength(s);
      var w, rest := s[..n], s[n..];
      assert s == w + rest;
      CollapseWordPrefix(w, rest);
      WordsOfWordStart(s);
      if rest == [] {
        assert CollapseSpaces(s) == w;
        assert Words(s) == [w];
        assert s[|s| - 1] == w[n - 1];
      } else {
        TrailingOfSuffix(s, rest);
        CollapseAfterWord(w, rest);
      }
    }
  }

  /** The inductive step of `CollapseFromWord`: a word followed by whitespace. */
  lemma {:induction false} CollapseAfterWord(w: string, rest: string)
    requires rest != [] && IsSpace(rest[0])
    ensures w + CollapseSpaces(rest) == Join([w] + Words(rest)) + TrailingSpace(rest)
    decreases |rest|, 2
  {
    if SkipSpaces(rest) == [] {
      CollapseAfterWordEnd(w, rest);
    } else {
      CollapseAfterWordMore(w, rest);
    }
  }

  /** A word followed by whitespace only. */
  lemma CollapseAfterWordEnd(w: string, rest: string)
    requires rest != [] && IsSpace(rest[0]) && SkipSpaces(rest) == []
    ensures w + CollapseSpaces(rest) == Join([w] + Words(rest)) + TrailingSpace(rest)
  {
    CollapseOfSpaceStart(rest);
    AllSpace(rest);
  }

  /** A word followed by whitespace and then more words. */
  lemma {:induction false} CollapseAfterWordMore(w: string, rest: string)
    requires rest != [] && IsSpace(rest[0]) && SkipSpaces(rest) != []
    ensures w + CollapseSpaces(rest) == Join([w] + Words(rest)) + TrailingSpace(rest)
    decreases |rest|, 1
  {
    var t := SkipSpaces(rest);
    CollapseOfSpaceStart(rest);
    WordsSkip(rest);
    SkipShortens(rest);
    TrailingOfSuffix(rest, t);
    CollapseFromWord(t);
    WordsOfWordStart(t);
    JoinAfterWord(w, Words(t), TrailingSpace(t));
  }

  /** Text that starts with whitespace loses at least one character. */
  lemma SkipShortens(s: string)
    requires s != [] && IsSpace(s[0])
    ensures |SkipSpaces(s)| < |s|
  {
    assert SkipSpaces(s) == SkipSpaces(s[1..]);
  }

  /** Text that is whitespace only has no words and ends in whitespace. */
  lemma AllSpace(s: string)
    requires s != [] && SkipSpaces(s) == []
    ensures Words(s) == [] && TrailingSpace(s) == " "
  {
    WordsSkip(s);
    assert IsSpace(s[|s| - 1]);
  }

  /** A non-empty suffix ends where the whole text ends. */
  lemma TrailingOfSuffix(s: string, t: string)
    requires t != [] && |t| <= |s| && t == s[|s| - |t|..]
    ensures TrailingSpace(t) == TrailingSpace(s)
  {
    assert t[|t| - 1] == s[|s| - 1];
  }

  /** A word, a space and the joined rest, regrouped. */
  lemma JoinAfterWord(w: string, ws: seq<string>, tail: string)
    requires ws != []
    ensures w + (" " + (Join(ws) + tail)) == Join([w] + ws) + tail
  {
    JoinCons(w, ws);
    AppendAssoc(w, " ", Join(ws) + tail);
    AppendAssoc(w + " ", Join(ws), tail);
  }

  lemma TrimRightOfClean(j: string)
    requires j == [] || !IsSpace(j[|j| - 1])
    ensures TrimRight(j) == j && TrimRight(j + " ") == j
  {
    assert (j + " ")[..|j + " "| - 1] == j;
  }

  lemma SkipOneSpace(x: string)
    requires x == [] || !IsSpace(x[0])
    ensures SkipSpaces(" " + x) == x
  {
    assert (" " + x)[1..] == x;
  }

  /** Stripping the collapsed text of a string that starts with a word. */
  lemma {:induction false} StripCollapsedWord(t: string)
    requires t != [] && !IsSpace(t[0])
    ensures Strip(CollapseSpaces(t)) == Join(Words(t))
    ensures Strip(" " + CollapseSpaces(t)) == Join(Words(t))
  {
    CollapseFromWord(t);
    WordsOfWordStart(t);
    JoinEnds(Words(t));
    var J := Join(Words(t));
    TrimRightOfClean(J);
    if IsSpace(t[|t| - 1]) {
      assert CollapseSpaces(t) == J + " ";
      SkipOneSpace(J + " ");
      assert " " + CollapseSpaces(t) == " " + (J + " ");
    } else {
      assert CollapseSpaces(t) == J;
      SkipOneSpace(J);
    }
  }

  lemma {:induction false} CleanIsJoinedWords(s: string)
    ensures Strip(CollapseSpaces(s)) == Join(Words(s))
  {
    if s == [] {
    } else if IsSpace(s[0]) {
      var t := SkipSpaces(s);
      CollapseOfSpaceStart(s);
      WordsSkip(s);
      if t == [] {
        assert SkipSpaces(" ") == [];
      } else {
        StripCollapsedWord(t);
      }
    } else {
      StripCollapsedWord(s);
    }
  }

  /** `clean_text(s)` is `" ".join(s.split())`. */
  lemma CleanTextIsJoinedWords(s: string)
    ensures CleanText(s) == Join(Words(s))
  {
    CleanIsJoinedWords(s);
  }

  lemma {:induction false} WordLengthOfWord(w: string, rest: string)
    requires NoSpace(w) && (rest == [] || IsSpace(rest[0]))
    ensures WordLength(w + rest) == |w|
    decreases |w|
  {
    if w != [] {
      assert (w + rest)[1..] == w[1..] + rest;
      WordLengthOfWord(w[1..], rest);
    }
  }

  /** Splitting the joined words gives the words back. */
  lemma {:induction false} WordsOfJoin(ws: seq<string>)
    requires AllWords(ws)
    ensures Words(Join(ws)) == ws
  {
    if |ws| == 1 {
      WordsOfWord(ws[0]);
    } else if |ws| > 1 {
      var w, tail := ws[0], ws[1..];
      assert IsWord(w) && AllWords(tail) by {
        assert forall k :: 0 <= k < |tail| ==> tail[k] == ws[k + 1];
      }
      assert Join(ws) == w + " " + Join(tail);
      WordsAroundSpace(w, Join(tail));
      WordsOfWord(w);
      WordsOfJoin(tail);
      assert ws == [w] + tail;
    }
  }

  /** A single word splits into itself. */
  lemma WordsOfWord(w: string)
    requires IsWord(w)
    ensures Words(w) == [w]
  {
    WordLengthOfWord(w, []);
    assert w + [] == w && w[..|w|] == w && w[|w|..] == [];
  }

  /** Splitting at an inserted space splits the word lists. */
  lemma {:induction false} WordsAroundSpace(a: string, b: string)
    ensures Words(a + " " + b) == Words(a) + Words(b)
    decreases |a|
  {
    var s := a + " " + b;
    if a == [] {
      assert s == " " + b;
      assert s[1..] == b;
    } else if IsSpace(a[0]) {
      assert s[1..] == a[1..] + " " + b;
      WordsAroundSpace(a[1..], b);
    } else {
      var n := WordLength(a);
      var w := a[..n];
      WordLengthOfWord(w, a[n..] + " " + b);
      assert s == w + (a[n..] + " " + b);
      assert s[0] == a[0];
      assert s[..n] == w;
      assert s[n..] == a[n..] + " " + b;
      assert Words(s) == [w] + Words(s[n..]);
      assert Words(a) == [w] + Words(a[n..]);
      if n == |a| {
        assert s[n..][1..] == b;
        assert Words(a[n..]) == [];
      } else {
        WordsAroundSpace(a[n..], b);
        AppendAssoc([w], Words(a[n..]), Words(b));
      }
    }
  }

  /** `clean_text` is idempotent: its output is already clean, with no
      whitespace at either end. */
  lemma CleanTextIdempotent(s: string)
    ensures CleanText(CleanText(s)) == CleanText(s)
    ensures IsClean(CleanText(s))
    ensures CleanText(s) == [] || (!IsSpace(CleanText(s)[0]) && !IsSpace(CleanText(s)[|CleanText(s)| - 1]))
  {
    CleanTextIsJoinedWords(s);
    CleanTextIsJoinedWords(CleanText(s));
    WordsOfJoin(Words(s));
    if Words(s) != [] {
      JoinEnds(Words(s));
    }
  }

  /** Re-cleaning after joining with a space (what the heading merge does)
      gives the same text as cleaning the raw concatenation once. */
  lemma CleanJoinAbsorbs(x: string, y: string)
    ensures CleanText(CleanText(x) + " " + y) == CleanText(x + " " + y)
  {
    CleanTextIsJoinedWords(x);
    CleanTextIsJoinedWords(CleanText(x) + " " + y);
    CleanTextIsJoinedWords(x + " " + y);
    WordsAroundSpace(CleanText(x), y);
    WordsAroundSpace(x, y);
    WordsOfJoin(Words(x));
  }

  /** Clean text has no whitespace other than single inner spaces. */
  lemma {:induction false} CleanHasOnlyPlainSpaces(ws: seq<string>)
    requires AllWords(ws)
    ensures forall i :: 0 <= i < |Join(ws)| ==> Join(ws)[i] == ' ' || !IsSpace(Join(ws)[i])
  {
    if |ws| > 1 {
      CleanHasOnlyPlainSpaces(ws[1..]);
      var w := ws[0];
      var J := Join(ws);
      forall i | 0 <= i < |J|
        ensures J[i] == ' ' || !IsSpace(J[i])
      {
        if i < |w| {
          assert J[i] == w[i];
        } else if i > |w| {
          assert J[i] == Join(ws[1..])[i - |w| - 1];
        }
      }
    }
  }

  /** Cleaned text carries no line break. */
  lemma CleanHasNoNewline(s: string)
    ensures forall i :: 0 <= i < |CleanText(s)| ==> CleanText(s)[i] != '\n'
  {
    CleanTextIsJoinedWords(s);
    CleanHasOnlyPlainSpaces(Words(s));
  }

  /** Cleaned text is non-empty exactly when the input has a word. */
  lemma CleanNonEmpty(s: string)
    ensures CleanText(s) != [] <==> Words(s) != []
  {
    CleanTextIsJoinedWords(s);
    if Words(s) != [] {
      JoinEnds(Words(s));
    }
  }
}

=== FILE: wrappers.dfy ===
/** The optional value used where the source uses `None`. */
module Wrappers {

  datatype Option<+T> = None | Some(value: T) {

    function GetOr(default: T): T {
      match this
      case Some(v) => v
      case None => default
    }
  }
}
